=== FILE: README.md ===
# Inventory table helpers — a Dafny model

This project models the table operations of the browser script
`static/js/app.js` of an inventory web page. The DOM is replaced by an
in-memory table. Its body is a sequence of rows, and each row has:

- its cell texts;
- its text content;
- a display flag;
- a mark saying whether it is the "No items found" placeholder (the
  `.empty-state` row).

The following operations are modelled on that table:

- the live-search filter pass, with the placeholder it appends;
- the debounce that coalesces keystrokes into one pass;
- the column sort;
- the CSV export text;
- the item counter;
- `formatNumber`;
- the status-badge helper.

Files, one module each:

| file | module | what it holds |
|---|---|---|
| `wrappers.dfy` | `Wrappers` | `Option` and `Outcome` |
| `text.dfy` | `Text` | the JavaScript string operations used: ASCII `toLowerCase`, `includes`, `trim` with the JavaScript white-space set, `join` and `split` on one character, decimal `toString` of naturals |
| `rows.dfy` | `Rows` | the row datatype, the placeholder row, counts of displayed rows and placeholders |
| `search.dfy` | `Search` | one live-search pass as a function, as written and corrected |
| `sorting.dfy` | `Sorting` | the sort as a stable insertion sort under an abstract comparator |
| `csv.dfy` | `Csv` | the export text, field escaping and its inverse |
| `format.dfy` | `Format` | thousands separators and the counter label |
| `badge.dfy` | `StatusBadge` | the status badge, as written and corrected |
| `debounce.dfy` | `Debounce` | the debounce closure as a class with the pending argument |
| `table.dfy` | `TableView` | the class `Table`: the body updated in place by the search and the sort, read by the export and the counter |

In the source, the search pass, the sort and the export work step by step,
so they are methods of `Table` with loops. Each method is proved against
the function of the same behaviour in `Search`, `Sorting` or `Csv`. The
properties are then lemmas about those functions.

Three behaviours of the script are modelled as written, though a reader
might expect otherwise:

- The search pass selects every body row. The placeholder is a body row
  too, so it is filtered like a data row and may be hidden; it is never
  removed.
- The sort is ascending only when the order argument is exactly `"asc"`.
  Every other value sorts descending.
- The badge helper as written throws (see Findings).

## Model

| member | source | states |
|---|---|---|
| Text.LowerIdempotent | static/js/app.js:92-93 | lower-casing keeps the length, leaves no upper-case ASCII letter and is idempotent |
| Text.IncludesIff | static/js/app.js:93 | `includes` holds iff the query occurs at some index of the text |
| Text.LeadingSpaces | static/js/app.js:145 | counts the white space `trim` removes in front: every counted character is white space and the next one is not |
| Text.TrailingSpaces | static/js/app.js:145 | counts the white space `trim` removes at the end: every counted character is white space and the one before is not |
| Text.TrimKeepsMiddle | static/js/app.js:145 | `trim` keeps the contiguous middle of the text that follows the leading white space, and everything around it is white space |
| Text.TrimEnds | static/js/app.js:145 | a trimmed text neither starts nor ends with white space |
| Text.TrimUnchanged | static/js/app.js:145 | a text that neither starts nor ends with white space is its own trimming |
| Text.TrimIdempotent | static/js/app.js:145 | trimming a trimmed text changes nothing |
| Text.SplitJoin | static/js/app.js:137-157 | joining with a separator that no part holds, then splitting on it, gives the parts back |
| Text.DigitsRoundTrip | static/js/app.js:66 | the decimal digits of `n` read back as `n` |
| Rows.VisibleRowsSpec | static/js/app.js:140-141 | a row is among the displayed rows iff it is in the body and marked displayed, and there are `CountVisible` of them |
| Rows.VisibleRowsOrder | static/js/app.js:140-141 | the displayed rows are the body's rows at strictly increasing positions, one for each displayed row and no other: table order and multiplicity are kept |
| Rows.VisibleRowsAppend | static/js/app.js:140-141 | selecting displayed rows distributes over two consecutive stretches of the body |
| Rows.CountVisibleAppend | static/js/app.js:241-242 | the displayed-row count of two consecutive stretches adds up |
| Rows.HasEmptyStateIff | static/js/app.js:105-107 | the existence test for a placeholder holds iff the placeholder count is positive |
| Search.CountMatchesContent | static/js/app.js:91-99 | matching ignores the display flag: bodies with the same content have the same match count and placeholder count |
| Search.FilterMarksMatches | static/js/app.js:91-99 | after the loop each row is displayed iff its lower-cased text contains the lower-cased query, nothing else about a row changed, and `visibleCount` is the number of displayed rows |
| Search.EmptyQueryShowsAll | static/js/app.js:89-99 | the empty query matches every row, so every row is displayed |
| Search.SearchPassPlaceholders | static/js/app.js:102-112 | a pass adds one placeholder exactly when nothing matched and none was present, and otherwise keeps the placeholder count: it never removes one and never adds a second |
| Search.ZeroResultPassesKeepOnePlaceholder | static/js/app.js:102-112 | a zero-result pass leaves exactly one placeholder, and repeating it does not add a second |
| Search.RepeatedMissHidesPlaceholder | static/js/app.js:88-112 | when nothing matches, the first pass appends a displayed placeholder and the same pass repeated hides it, leaving nothing displayed |
| Search.HiddenPlaceholderExample | static/js/app.js:88-112 | one "Milk" row, query "zzz" twice: "No items found" is shown after the first pass and hidden after the second, and nothing is displayed |
| Search.CorrectedPassSpec | static/js/app.js:87-114 | the corrected pass filters data rows as the script does, changes only the display of the placeholders it finds (shown iff no data row matched), and otherwise appends exactly one displayed placeholder, only when nothing matched and none is present |
| Search.CorrectedPassIdempotent | static/js/app.js:87-114 | the corrected pass repeated with the same query changes nothing |
| Sorting.InsertPermutation | static/js/app.js:181-197 | inserting a row adds exactly that row |
| Sorting.SortRowsPermutation | static/js/app.js:181-197 | the sorted rows are a permutation of the rows |
| Sorting.InsertSorted | static/js/app.js:181-197 | inserting into a sorted sequence keeps it sorted |
| Sorting.SortRowsSorted | static/js/app.js:181-197 | every row is ordered before every later row by the comparator on column `columnIndex`, in the requested direction |
| Sorting.SortedUnique | static/js/app.js:181-197 | without ties, two sorted arrangements of the same rows are equal |
| Sorting.InsertStable | static/js/app.js:181-197 | inserting a row into a sorted sequence puts it after every row the comparator calls equal to it |
| Sorting.SortRowsStable | static/js/app.js:181-197 | the sort is stable: for every row `t`, the rows tied with `t` keep their relative order |
| Sorting.SortedStableUnique | static/js/app.js:181-197 | two sorted arrangements of the same rows that keep every tie class in the same order are equal |
| Sorting.StableSortIsSortRows | static/js/app.js:181-197 | any sorted permutation of the rows that keeps every tie class in its original order, which is what a stable `Array.prototype.sort` returns, is the modelled sort |
| Sorting.SortDescendingMirrorsAscending | static/js/app.js:190-196 | without ties, the descending sort (comparator with its arguments swapped) is the exact reverse of the ascending sort |
| Csv.DoubleQuotes | static/js/app.js:148 | doubling quotes never shortens a text and keeps whether it holds a comma |
| Csv.UndoubleDoubled | static/js/app.js:148 | un-doubling undoes the doubling of every `"` |
| Csv.EscapeFieldRoundTrip | static/js/app.js:147-150 | a field is quoted iff its text holds a comma; the quoted field is `"`, the text with every `"` doubled, and `"`; unescaping gives the text back; a text without a comma is emitted unchanged |
| Csv.DataFieldsSpec | static/js/app.js:142-151 | a row yields one field per cell but the last, in cell order, each reading back as the trimmed cell text |
| Csv.DataLinesOfVisibleRows | static/js/app.js:140-154 | the data lines are the lines of the displayed rows, in table order; hidden rows are skipped |
| Csv.CsvLinesShape | static/js/app.js:136-154 | the first line is the header texts joined by commas, followed by the line of each displayed row in table order: 1 + (displayed rows) lines |
| Csv.CsvContentSplitsIntoLines | static/js/app.js:157 | when no line holds a line feed, cutting the export at line feeds gives back its lines, 1 + (displayed rows) of them |
| Csv.SingleRowExport | static/js/app.js:136-157 | one displayed row exports as the header line, a line feed and that row's line |
| Csv.TwoFieldLine | static/js/app.js:152 | two fields make the first, a comma and the second |
| Csv.QuotedAsIs | static/js/app.js:145-149 | a trimmed text with a comma and no quote is exported in quotes as it is |
| Csv.PlainAsIs | static/js/app.js:145-150 | a trimmed text without a comma is exported unchanged |
| Csv.NameQuantityExport | static/js/app.js:136-157 | a name with a comma, a quantity and the action column export as the header line, then the quoted name, a comma and the quantity |
| Format.RemoveCommasCommafy | static/js/app.js:66 | removing the inserted commas gives the digit string back |
| Format.CommafyShort | static/js/app.js:66 | at most three digits get no comma |
| Format.CommafySplit | static/js/app.js:66 | a comma separates a prefix from a tail made of whole three-digit groups |
| Format.CommafyGrouped | static/js/app.js:66 | the result is a first group of one to three digits followed by groups of a comma and three digits |
| Format.FormatNumberSpec | static/js/app.js:65-67 | for every natural `n` up to `Number.MAX_SAFE_INTEGER`, `formatNumber(n)` is correctly grouped, and without commas it is the decimal digits of `n`, which read back as `n` |
| Format.DigitsThenItem | static/js/app.js:245 | digits, " item" and an optional "s": the last character is 's' iff the "s" is there, and the digits are what precedes the first space |
| Format.ItemCountLabelSpec | static/js/app.js:245 | the label is the decimal count, then " item", then "s" exactly when the count is not 1; the count reads back from the text before the first space |
| StatusBadge.ThrowsIffUndeclared | static/js/app.js:256-266 | the helper as written, evaluating `expiredexpired` then `expiring` then `lowStock`, throws exactly when nothing in its scope binds `expiredexpired`, and then throws a ReferenceError naming it, whatever the arguments |
| StatusBadge.TypoIsTheOnlyDifference | static/js/app.js:256-266 | were `expiredexpired` bound to the value of `expired`, the helper as written would return exactly what the corrected helper returns |
| StatusBadge.AsWrittenAlwaysThrows | static/js/app.js:256-257 | with the script's own top-level bindings, which do not include `expiredexpired`, every call throws a ReferenceError and none returns a badge |
| StatusBadge.Priority | static/js/app.js:256-266 | exactly one badge: Expired iff expired, Expiring iff expiring and not expired, Low Stock iff low stock and neither other, Good iff none |
| StatusBadge.MarkupInjective | static/js/app.js:258-266 | the four markups are pairwise different, so a markup names one badge |
| StatusBadge.GetStatusBadgeSurfacesOne | static/js/app.js:256-267 | the corrected helper always returns, and its markup is the markup of exactly one badge, the one `Priority` picks |
| Debounce.Debouncer.constructor | static/js/app.js:72-73 | no timer is armed at first |
| Debounce.Debouncer.Call | static/js/app.js:74-80 | a call cancels the armed timer and arms one for its own argument |
| Debounce.Debouncer.Elapse | static/js/app.js:75-78 | when the wait elapses, the armed call runs once with its argument and no timer remains |
| Debounce.Burst | static/js/app.js:72-82 | calls within one wait run the function at most once, with the last call's argument |
| TableView.Table.constructor | static/js/app.js:130-136 | the table holds the given headers, body rows and counter |
| TableView.Table.LiveSearch | static/js/app.js:87-114 | the body becomes the script's pass over the old body, and `visibleCount` is the number of matching rows, which is the number displayed by the loop |
| TableView.Table.MarkRows | static/js/app.js:89-99 | each row becomes displayed iff it matches, in place, and the count is the number of matching rows |
| TableView.Table.LiveSearchCorrected | static/js/app.js:87-114 | the body becomes the corrected pass over the old body, and the count is the number of matching data rows |
| TableView.Table.FilterDataRows | static/js/app.js:89-99 | the corrected loop: each data row becomes displayed iff it matches, placeholders are untouched, and the count is the number of matching data rows |
| TableView.Table.ShowPlaceholders | static/js/app.js:102-112 | the corrected placeholder step: every placeholder's display becomes the given flag, and data rows are untouched |
| TableView.Table.SortTable | static/js/app.js:177-202 | if some compared row lacks the cell, the comparator throws and the body is unchanged; otherwise the body is the sorted old body, a permutation of it, ordered by the comparator, with tied rows in their former order |
| TableView.Table.Repopulate | static/js/app.js:200-201 | after clearing the body and appending the rows one by one, the body is exactly those rows in that order |
| TableView.Table.ExportCsv | static/js/app.js:133-157 | the pushed and joined lines are the export text of the headers and the body |
| TableView.Table.UpdateItemCount | static/js/app.js:240-247 | with a counter present, it shows the label of the displayed-row count; otherwise nothing changes |
| TableView.ExportTableToCsv | static/js/app.js:129-131 | without a table the export does nothing; otherwise it produces the export text |

## Left out

- The DOMContentLoaded handlers, tooltip initialisation and row animation delays: these are event wiring and styling.
- `showToast`, `confirmDelete`, `printInventory` and the keyboard-shortcut listener: these are browser dialogs, a UI library and event plumbing.
- `formatDate`: it depends on `Date` and locale formatting.
- The Blob, object URL and download link of the export, and its `filename` argument. Only the produced text is modelled.
- Debounce timing (`setTimeout` with the 300 ms wait of the live search): `Debounce.Debouncer.Elapse` stands for the wait running out with no further call.
- Debounce.Debouncer: holds only the argument of the armed call, not a timer handle.
- Sorting.SortRows: `parseFloat` comparison and `localeCompare` are replaced by an abstract comparator on cell texts assumed to be a total preorder. The script's real comparator mixes numeric and string comparison, which need not be one.
- Sorting.SortRows: the sort is modelled as a stable insertion sort; `StableSortIsSortRows` shows any stable sort gives the same body under a total preorder. The order in which the comparator is called is not modelled.
- TableView.Table.SortTable: a non-integer column index is not modelled.
- TableView.Table.SortTable: a page without a table body, where the script throws on line 179, is not modelled; the table is always present.
- TableView.Table.LiveSearch: a page without a table body, where the placeholder is not appended, is not modelled.
- TableView.Table.LiveSearch: a page with several tables, whose rows one pass would all select, is not modelled; there is one table.
- Format.FormatNumber: only naturals up to `Number.MAX_SAFE_INTEGER` (2^53 - 1) are modelled faithfully. Above it `toString` prints the shortest digits that round to the double, padded with zeros (2^60 is formatted as 1,152,921,504,606,847,000), while the model prints the exact digits. Negative numbers, decimals and the exponent form from 1e21 on are not modelled.
- Format.FormatNumberSpec: stated only for naturals up to `Number.MAX_SAFE_INTEGER`, because above it the script's digits are rounded and are not the decimal digits of the natural.
- Text.Lower: lower-casing folds ASCII letters only, not the rest of Unicode.
- Csv.CsvContent: a cell text holding a line feed or a quote without a comma is written unescaped, as the script does. The CSV reading that undoes the export therefore assumes no line feed in any line.
- Csv.NameQuantityExport: the concrete export example is stated for any header, name and quantity of that shape, not for literal strings.
- StatusBadge.ScriptScope: the bindings visible to the badge helper are the script's own top-level declarations; globals other scripts of the page may define are not modelled, which is why `ThrowsIffUndeclared` is stated for any scope.
- The placeholder markup (`colspan="7"`, its classes) is abstracted to a row with the single cell text "No items found".

## Findings

| source | as written | input that shows it | evidently intended | confidence | as-written member | corrected member |
|---|---|---|---|---|---|---|
| static/js/app.js:257 | the first test reads `expiredexpired`, an identifier declared nowhere, so every call throws a ReferenceError | `getStatusBadge(true, false, false)` (any arguments) | test `expired`: the Expired badge before Expiring before Low Stock, else Good | high; not executed | StatusBadge.AsWrittenAlwaysThrows | StatusBadge.GetStatusBadgeSurfacesOne |
| static/js/app.js:88 | the pass selects every body row, the "No items found" placeholder included, so a later pass filters the placeholder out | one row "Milk 3 Delete", query "zzz" searched twice: the second pass hides the placeholder and nothing is displayed | the placeholder is displayed exactly when no data row matches | medium; not executed | Search.HiddenPlaceholderExample | Search.CorrectedPassIdempotent |

=== FILE: badge.dfy ===
/**
 * The status badge of an inventory item. The helper is meant to surface a
 * single condition, in the priority expired, then expiring, then low
 * stock, and otherwise "Good". As written, its first test reads the
 * identifier `expiredexpired`, which is declared nowhere, so every call
 * throws a ReferenceError before any branch is taken.
 */
module StatusBadge {

  datatype Badge = Expired | Expiring | LowStock | Good

  /** What a call throws. */
  datatype Thrown = ReferenceError(identifier: string)

  /** A call either returns a value or throws. */
  datatype Completion<T> = Returned(value: T) | Threw(thrown: Thrown)

  function Colour(b: Badge): string {
    match b
    case Expired => "danger"
    case Expiring => "warning"
    case LowStock => "info"
    case Good => "success"
  }

  function Icon(b: Badge): string {
    match b
    case Expired => "x-circle"
    case Expiring => "exclamation-circle"
    case LowStock => "exclamation-triangle"
    case Good => "check-circle"
  }

  function Label(b: Badge): string {
    match b
    case Expired => "Expired"
    case Expiring => "Expiring"
    case LowStock => "Low Stock"
    case Good => "Good"
  }

  /** The markup the helper returns for each badge. */
  function Markup(b: Badge): string {
    "<span class=\"badge bg-" + Colour(b) + "\"><i class=\"bi bi-" + Icon(b) + "\"></i> " + Label(b) + "</span>"
  }

  /**
   * The names the script declares at top level. Each is bound to a function
   * (or, for `liveSearch`, to the function `debounce` returns), so each
   * tests true.
   */
  const ScriptGlobals: set<string> := {
    "formatDate", "showToast", "confirmDelete", "formatNumber", "debounce", "liveSearch",
    "exportTableToCSV", "printInventory", "sortTable", "updateItemCount", "getStatusBadge"
  }

  /** The global bindings the script itself makes, each by whether it tests true. */
  function ScriptScope(): map<string, bool> {
    map name | name in ScriptGlobals :: true
  }

  /** The scope inside the helper: the globals, shadowed by its three parameters. */
  function HelperScope(globals: map<string, bool>, expired: bool, expiring: bool, lowStock: bool): map<string, bool> {
    globals["expired" := expired]["expiring" := expiring]["lowStock" := lowStock]
  }

  /** Evaluating an identifier as a test: its truthiness, or a ReferenceError when nothing binds it. */
  function Lookup(scope: map<string, bool>, name: string): Completion<bool> {
    if name in scope then Returned(scope[name]) else Threw(ReferenceError(name))
  }

  /**
   * The helper as written, with `globals` the bindings visible to it: the
   * first test evaluates `expiredexpired`, the others `expiring` and
   * `lowStock`, and the first test that holds picks the markup.
   */
  function GetStatusBadgeAsWritten(globals: map<string, bool>, expired: bool, expiring: bool, lowStock: bool): Completion<string> {
    var scope := HelperScope(globals, expired, expiring, lowStock);
    match Lookup(scope, "expiredexpired")
    case Threw(e) => Threw(e)
    case Returned(first) =>
      if first then Returned(Markup(Expired))
      else if scope["expiring"] then Returned(Markup(Expiring))
      else if scope["lowStock"] then Returned(Markup(LowStock))
      else Returned(Markup(Good))
  }

  /**
   * The helper as written throws exactly when nothing visible to it binds
   * `expiredexpired`, and then it throws a ReferenceError naming it; the
   * arguments make no difference.
   */
  lemma ThrowsIffUndeclared(globals: map<string, bool>, expired: bool, expiring: bool, lowStock: bool)
    ensures GetStatusBadgeAsWritten(globals, expired, expiring, lowStock).Threw?
      <==> "expiredexpired" !in globals
    ensures GetStatusBadgeAsWritten(globals, expired, expiring, lowStock).Threw? ==>
      GetStatusBadgeAsWritten(globals, expired, expiring, lowStock).thrown == ReferenceError("expiredexpired")
  {
    assert "expiredexpired" != "expired" && "expiredexpired" != "expiring" && "expiredexpired" != "lowStock";
  }

  /**
   * Were `expiredexpired` bound to the value of `expired`, the helper as
   * written would return what the corrected helper returns: the misspelt
   * identifier is the only difference.
   */
  lemma TypoIsTheOnlyDifference(globals: map<string, bool>, expired: bool, expiring: bool, lowStock: bool)
    requires "expiredexpired" in globals && globals["expiredexpired"] == expired
    ensures GetStatusBadgeAsWritten(globals, expired, expiring, lowStock) == GetStatusBadge(expired, expiring, lowStock)
  {
    assert "expiredexpired" != "expired" && "expiredexpired" != "expiring" && "expiredexpired" != "lowStock";
  }

  /** With the script's own globals, no argument combination gets a badge back: every call throws. */
  lemma AsWrittenAlwaysThrows(expired: bool, expiring: bool, lowStock: bool)
    ensures GetStatusBadgeAsWritten(ScriptScope(), expired, expiring, lowStock)
      == Threw(ReferenceError("expiredexpired"))
    ensures forall b :: GetStatusBadgeAsWritten(ScriptScope(), expired, expiring, lowStock) != Returned(Markup(b))
  {
    assert "expiredexpired" !in ScriptGlobals;
    ThrowsIffUndeclared(ScriptScope(), expired, expiring, lowStock);
  }

  /**
   * The intended priority: exactly one badge, expired before expiring
   * before low stock, and "Good" when no condition holds.
   */
  function Priority(expired: bool, expiring: bool, lowStock: bool): (b: Badge)
    ensures b == Expired <==> expired
    ensures b == Expiring <==> !expired && expiring
    ensures b == LowStock <==> !expired && !expiring && lowStock
    ensures b == Good <==> !expired && !expiring && !lowStock
  {
    if expired then Expired
    else if expiring then Expiring
    else if lowStock then LowStock
    else Good
  }

  /** The helper with the first test reading `expired`. */
  function GetStatusBadge(expired: bool, expiring: bool, lowStock: bool): Completion<string> {
    Returned(Markup(Priority(expired, expiring, lowStock)))
  }

  /** The character after the fixed opening of the markup is the first letter of the colour. */
  lemma MarkupColourLetter(b: Badge)
    ensures |Markup(b)| > 22 && Markup(b)[22] == Colour(b)[0]
  {
    var prefix := "<span class=\"badge bg-";
    assert |prefix| == 22;
    assert Markup(b)[22] == (prefix + Colour(b))[22];
  }

  /** Different badges have different markup: the first letter of the colour class tells them apart. */
  lemma MarkupInjective(a: Badge, b: Badge)
    ensures Markup(a) == Markup(b) <==> a == b
  {
    MarkupColourLetter(a);
    MarkupColourLetter(b);
  }

  /**
   * The corrected helper always returns, and its markup names one condition
   * only: different badges have different markup, so the markup determines
   * which condition was surfaced.
   */
  lemma GetStatusBadgeSurfacesOne(expired: bool, expiring: bool, lowStock: bool, other: Badge)
    ensures GetStatusBadge(expired, expiring, lowStock).Returned?
    ensures GetStatusBadge(expired, expiring, lowStock) == Returned(Markup(other))
      <==> other == Priority(expired, expiring, lowStock)
  {
    MarkupInjective(other, Priority(expired, expiring, lowStock));
  }
}

=== FILE: csv.dfy ===
/**
 * The text the CSV export produces. The first line is the header texts
 * joined by commas, as they are. Then comes one line per displayed body
 * row, in table order. Each line holds every cell of the row but the last
 * (the action column), trimmed. A field that contains a comma is wrapped
 * in double quotes with each of its double quotes doubled; any other field
 * is written as it is. Lines are joined by a line feed.
 */
module Csv {
  import opened Text
  import opened Rows

  /** `text.replace(/"/g, '""')`: every double quote doubled. */
  function DoubleQuotes(s: string): (r: string)
    ensures |r| >= |s|
    ensures (',' in r) <==> (',' in s)
  {
    if |s| == 0 then ""
    else
      var rest := DoubleQuotes(s[1..]);
      assert ',' in s <==> s[0] == ',' || ',' in s[1..] by { assert s == [s[0]] + s[1..]; }
      (if s[0] == '"' then "\"\"" else [s[0]]) + rest
  }

  /** Reads a doubled double quote as one. */
  function UndoubleQuotes(s: string): string
    decreases |s|
  {
    if |s| == 0 then ""
    else if |s| >= 2 && s[0] == '"' && s[1] == '"' then "\"" + UndoubleQuotes(s[2..])
    else [s[0]] + UndoubleQuotes(s[1..])
  }

  /** Un-doubling undoes doubling. */
  lemma {:induction false} UndoubleDoubled(s: string)
    ensures UndoubleQuotes(DoubleQuotes(s)) == s
    decreases |s|
  {
    if |s| > 0 {
      UndoubleDoubled(s[1..]);
      var rest := DoubleQuotes(s[1..]);
      if s[0] == '"' {
        assert DoubleQuotes(s) == "\"\"" + rest;
        assert DoubleQuotes(s)[2..] == rest;
      } else {
        assert DoubleQuotes(s) == [s[0]] + rest;
        assert DoubleQuotes(s)[1..] == rest;
      }
    }
  }

  lemma {:induction false} DoubleQuotesWithoutQuotes(s: string)
    requires '"' !in s
    ensures DoubleQuotes(s) == s
    decreases |s|
  {
    if |s| > 0 {
      assert '"' !in s[1..];
      DoubleQuotesWithoutQuotes(s[1..]);
    }
  }

  /** The escape rule applied to one trimmed cell text. */
  function EscapeField(text: string): string {
    if ',' in text then "\"" + DoubleQuotes(text) + "\"" else text
  }

  /** The reading of a field that undoes EscapeField: a field holding a comma is a quoted one. */
  function UnescapeField(field: string): string {
    if ',' in field && |field| >= 2 then UndoubleQuotes(field[1..|field| - 1]) else field
  }

  /**
   * A field is quoted exactly when its text holds a comma; stripping the
   * outer quotes and un-doubling gives the text back, and a text without a
   * comma is written unchanged.
   */
  lemma EscapeFieldRoundTrip(text: string)
    ensures UnescapeField(EscapeField(text)) == text
    ensures EscapeField(text) == text <==> ',' !in text
    ensures ',' in text ==> var f := EscapeField(text);
      |f| >= 2 && f[0] == '"' && f[|f| - 1] == '"' && f[1..|f| - 1] == DoubleQuotes(text)
  {
    if ',' in text {
      var f := EscapeField(text);
      assert f[1..|f| - 1] == DoubleQuotes(text);
      assert ',' in f by {
        var k :| 0 <= k < |DoubleQuotes(text)| && DoubleQuotes(text)[k] == ',';
        assert f[k + 1] == ',';
      }
      UndoubleDoubled(text);
    }
  }

  /** The exported fields of one row: every cell but the last, trimmed and escaped. */
  function DataFields(cells: seq<string>): seq<string> {
    if |cells| == 0 then []
    else seq(|cells| - 1, k requires 0 <= k < |cells| - 1 => EscapeField(Trim(cells[k])))
  }

  /** The exported line of one row. */
  function RowLine(row: Row): string {
    Join(DataFields(row.cells), ',')
  }

  /**
   * A row contributes one field per cell except its last, in cell order,
   * and each field reads back as the trimmed text of its cell.
   */
  lemma DataFieldsSpec(cells: seq<string>)
    ensures |DataFields(cells)| == if |cells| == 0 then 0 else |cells| - 1
    ensures forall k :: 0 <= k < |DataFields(cells)| ==> UnescapeField(DataFields(cells)[k]) == Trim(cells[k])
  {
    forall k | 0 <= k < |DataFields(cells)|
      ensures UnescapeField(DataFields(cells)[k]) == Trim(cells[k])
    {
      EscapeFieldRoundTrip(Trim(cells[k]));
    }
  }

  /** The `forEach` over the body rows: a line for each displayed row, hidden rows skipped. */
  function DataLines(rows: seq<Row>): seq<string>
    decreases |rows|
  {
    if |rows| == 0 then []
    else
      var last := rows[|rows| - 1];
      DataLines(rows[..|rows| - 1]) + (if last.visible then [RowLine(last)] else [])
  }

  /** The `csv` array once every row has been visited. */
  function CsvLines(headers: seq<string>, rows: seq<Row>): seq<string> {
    [Join(headers, ',')] + DataLines(rows)
  }

  /** `csv.join('\n')`: the exported text. */
  function CsvContent(headers: seq<string>, rows: seq<Row>): string {
    Join(CsvLines(headers, rows), '\n')
  }

  /** The data lines are the lines of the displayed rows, in table order. */
  lemma {:induction false} DataLinesOfVisibleRows(rows: seq<Row>)
    ensures |DataLines(rows)| == |VisibleRows(rows)|
    ensures forall k :: 0 <= k < |DataLines(rows)| ==> DataLines(rows)[k] == RowLine(VisibleRows(rows)[k])
    decreases |rows|
  {
    if |rows| > 0 {
      DataLinesOfVisibleRows(rows[..|rows| - 1]);
    }
  }

  /** A header line in front of one line per row. */
  lemma HeaderThenLines(header: string, data: seq<string>, shown: seq<Row>)
    requires |data| == |shown|
    requires forall k :: 0 <= k < |data| ==> data[k] == RowLine(shown[k])
    ensures var lines := [header] + data;
      && |lines| == 1 + |shown|
      && lines[0] == header
      && forall k :: 0 <= k < |shown| ==> lines[k + 1] == RowLine(shown[k])
  {
  }

  /**
   * The export holds the header line first, then exactly one line per
   * displayed row, so 1 + (number of displayed rows) lines in all.
   */
  lemma CsvLinesShape(headers: seq<string>, rows: seq<Row>)
    ensures var lines := CsvLines(headers, rows);
      && |lines| == 1 + CountVisible(rows)
      && lines[0] == Join(headers, ',')
      && lines[1..] == seq(|VisibleRows(rows)|, k requires 0 <= k < |VisibleRows(rows)| => RowLine(VisibleRows(rows)[k]))
  {
    VisibleRowsSpec(rows);
    DataLinesOfVisibleRows(rows);
    HeaderThenLines(Join(headers, ','), DataLines(rows), VisibleRows(rows));
  }

  /**
   * When no header or cell text holds a line feed, cutting the export at
   * line feeds gives back exactly its lines.
   */
  lemma CsvContentSplitsIntoLines(headers: seq<string>, rows: seq<Row>)
    requires forall i :: 0 <= i < |CsvLines(headers, rows)| ==> '\n' !in CsvLines(headers, rows)[i]
    ensures Split(CsvContent(headers, rows), '\n') == CsvLines(headers, rows)
    ensures |Split(CsvContent(headers, rows), '\n')| == 1 + CountVisible(rows)
  {
    SplitJoin(CsvLines(headers, rows), '\n');
    CsvLinesShape(headers, rows);
  }

  /** A body with one displayed row exports as the header line, a line feed and that row's line. */
  lemma SingleRowExport(headers: seq<string>, row: Row)
    requires row.visible
    ensures CsvContent(headers, [row]) == Join(headers, ',') + "\n" + RowLine(row)
  {
    assert [row][..0] == [];
    assert DataLines([row]) == [RowLine(row)];
    var lines := CsvLines(headers, [row]);
    assert lines == [Join(headers, ','), RowLine(row)];
    assert Join(lines[1..], '\n') == RowLine(row);
  }

  /** Two fields make a line of the first, a comma and the second. */
  lemma TwoFieldLine(row: Row, first: string, second: string)
    requires DataFields(row.cells) == [first, second]
    ensures RowLine(row) == first + "," + second
  {
    var fields := DataFields(row.cells);
    assert fields[1..] == [second];
    assert Join(fields[1..], ',') == second;
  }

  /** A text with a comma and no quote or outer white space is exported as itself in quotes. */
  lemma QuotedAsIs(text: string)
    requires |text| > 0 && !IsSpace(text[0]) && !IsSpace(text[|text| - 1])
    requires ',' in text && '"' !in text
    ensures EscapeField(Trim(text)) == "\"" + text + "\""
  {
    TrimUnchanged(text);
    DoubleQuotesWithoutQuotes(text);
  }

  /** A text without a comma or outer white space is exported unchanged. */
  lemma PlainAsIs(text: string)
    requires |text| > 0 && !IsSpace(text[0]) && !IsSpace(text[|text| - 1])
    requires ',' !in text
    ensures EscapeField(Trim(text)) == text
  {
    TrimUnchanged(text);
  }

  /**
   * A displayed row of a name holding a comma, a quantity and the action
   * column exports as the header line and the quoted name, a comma and the
   * quantity; the action column is dropped. With the header Name, Qty,
   * Action and the row "Milk, 2%", "3", "Delete" this is the text
   * Name,Qty,Action, a line feed, then "Milk, 2%",3.
   */
  lemma NameQuantityExport(headers: seq<string>, name: string, qty: string, action: string, text: string)
    requires |name| > 0 && !IsSpace(name[0]) && !IsSpace(name[|name| - 1])
    requires ',' in name && '"' !in name
    requires |qty| > 0 && !IsSpace(qty[0]) && !IsSpace(qty[|qty| - 1]) && ',' !in qty
    ensures CsvContent(headers, [Row([name, qty, action], text, true, false)])
      == Join(headers, ',') + "\n" + "\"" + name + "\"" + "," + qty
  {
    var row := Row([name, qty, action], text, true, false);
    var quoted := "\"" + name + "\"";
    assert DataFields(row.cells) == [quoted, qty] by {
      QuotedAsIs(name);
      PlainAsIs(qty);
    }
    assert RowLine(row) == quoted + "," + qty by {
      TwoFieldLine(row, quoted, qty);
    }
    SingleRowExport(headers, row);
  }
}

=== FILE: debounce.dfy ===
/**
 * The debounce wrapper of the live search. Its closure holds one timer
 * handle; each call clears the pending timer and arms a new one that will
 * run the wrapped function with that call's arguments once the wait has
 * elapsed. Time itself is not modelled: `Elapse` stands for the wait
 * running out with no further call.
 */
module Debounce {
  import opened Wrappers

  class Debouncer {
    /** The argument of the armed timer, if one is armed. */
    var pending: Option<string>

    constructor ()
      ensures pending == None
    {
      pending := None;
    }

    /** A call cancels the armed timer, if any, and arms one for its own argument. */
    method Call(arg: string)
      modifies this
      ensures pending == Some(arg)
    {
      pending := Some(arg);
    }

    /** The wait elapses: the armed timer, if any, fires once and is gone. */
    method Elapse() returns (fired: Option<string>)
      modifies this
      ensures fired == old(pending)
      ensures pending == None
    {
      fired := pending;
      pending := None;
    }
  }

  /**
   * Calls made within one wait: the wrapped function runs at most once,
   * and then with the argument of the last call.
   */
  method Burst(args: seq<string>) returns (fired: Option<string>)
    ensures fired == if |args| == 0 then None else Some(args[|args| - 1])
  {
    var d := new Debouncer();
    var i := 0;
    while i < |args|
      invariant 0 <= i <= |args|
      invariant d.pending == if i == 0 then None else Some(args[i - 1])
    {
      d.Call(args[i]);
      i := i + 1;
    }
    fired := d.Elapse();
  }
}

=== FILE: format.dfy ===
/**
 * The two display formatters: thousands separators for a natural number,
 * and the "<n> item(s)" label of the item counter.
 */
module Format {
  import opened Text

  /**
   * `replace(/\B(?=(\d{3})+(?!\d))/g, ",")` on a string of digits: a comma
   * goes after a digit exactly when a positive multiple of three digits
   * follows it.
   */
  function Commafy(d: string): string
    decreases |d|
  {
    if |d| == 0 then ""
    else [d[0]] + (if |d| > 1 && (|d| - 1) % 3 == 0 then "," else "") + Commafy(d[1..])
  }

  /**
   * Number.MAX_SAFE_INTEGER, 2^53 - 1: up to it every natural is a number
   * whose `toString` is its exact decimal digits; above it `toString` prints
   * the shortest digits that round to the double, padded with zeros.
   */
  const MaxSafeInteger: nat := 9007199254740991

  /** formatNumber on a natural number. */
  function FormatNumber(n: nat): string {
    Commafy(Digits(n))
  }

  function RemoveCommas(s: string): string
    decreases |s|
  {
    if |s| == 0 then "" else (if s[0] == ',' then "" else [s[0]]) + RemoveCommas(s[1..])
  }

  /** A first group of one to three digits, then groups of a comma and exactly three digits. */
  predicate Grouped(s: string)
    decreases |s|
  {
    if |s| <= 3 then |s| >= 1 && AllDigits(s)
    else |s| >= 5 && s[|s| - 4] == ',' && AllDigits(s[|s| - 3..]) && Grouped(s[..|s| - 4])
  }

  /** Taking the commas back out of a formatted digit string gives the digits. */
  lemma {:induction false} RemoveCommasCommafy(d: string)
    requires AllDigits(d)
    ensures RemoveCommas(Commafy(d)) == d
    decreases |d|
  {
    if |d| > 0 {
      var sep := if |d| > 1 && (|d| - 1) % 3 == 0 then "," else "";
      var rest := Commafy(d[1..]);
      var s := [d[0]] + sep + rest;
      calc {
        RemoveCommas(Commafy(d));
        RemoveCommas(s);
        { assert IsDigit(d[0]) && s[0] == d[0] && s[1..] == sep + rest; }
        [d[0]] + RemoveCommas(sep + rest);
        { if sep == "," { assert (sep + rest)[1..] == rest; } else { assert sep + rest == rest; } }
        [d[0]] + RemoveCommas(rest);
        { RemoveCommasCommafy(d[1..]); }
        [d[0]] + d[1..];
        d;
      }
    }
  }

  /** At most three digits get no comma. */
  lemma {:induction false} CommafyShort(d: string)
    requires |d| <= 3
    ensures Commafy(d) == d
    decreases |d|
  {
    if |d| > 0 {
      CommafyShort(d[1..]);
      assert d == [d[0]] + d[1..];
    }
  }

  /** Adding whole groups of three digits keeps the position within a group. */
  lemma {:induction false} ModThreeShift(a: nat, m: nat)
    ensures (a + 3 * m) % 3 == a % 3
    decreases m
  {
    if m > 0 {
      ModThreeShift(a, m - 1);
      assert a + 3 * m == (a + 3 * (m - 1)) + 3;
    }
  }

  /** A comma separates the formatting of a prefix from a tail of whole groups. */
  lemma {:induction false} CommafySplit(p: string, s: string)
    requires |p| >= 1 && |s| >= 3 && |s| % 3 == 0
    ensures Commafy(p + s) == Commafy(p) + "," + Commafy(s)
    decreases |p|
  {
    var ps := p + s;
    var m := |s| / 3;
    assert |s| == 3 * m;
    ModThreeShift(|p| - 1, m);
    assert ps[0] == p[0];
    var sep := if (|p| - 1) % 3 == 0 then "," else "";
    assert Commafy(ps) == [p[0]] + sep + Commafy(ps[1..]) by {
      assert |ps| > 1 && (|ps| - 1) % 3 == (|p| - 1) % 3;
    }
    if |p| == 1 {
      assert ps[1..] == s;
      assert Commafy(p) == [p[0]];
    } else {
      var a, c := Commafy(p[1..]), Commafy(s);
      calc {
        Commafy(ps);
        [p[0]] + sep + Commafy(ps[1..]);
        { assert ps[1..] == p[1..] + s; CommafySplit(p[1..], s); }
        [p[0]] + sep + (a + "," + c);
        ([p[0]] + sep + a) + "," + c;
        Commafy(p) + "," + c;
      }
    }
  }

  lemma {:induction false} CommafyGrouped(d: string)
    requires |d| >= 1 && AllDigits(d)
    ensures Grouped(Commafy(d))
    decreases |d|
  {
    if |d| <= 3 {
      CommafyShort(d);
    } else {
      var p, s := d[..|d| - 3], d[|d| - 3..];
      var r := Commafy(p) + "," + s;
      assert Commafy(d) == r by {
        assert d == p + s;
        CommafySplit(p, s);
        CommafyShort(s);
      }
      assert Grouped(r) by {
        CommafyGrouped(p);
        assert r[..|r| - 4] == Commafy(p);
        assert r[|r| - 3..] == s;
      }
    }
  }

  /**
   * The formatted number is made of a first group of one to three digits
   * followed by groups of a comma and three digits, and without its commas
   * it is the decimal representation of the number, for every natural
   * the script's numbers represent exactly.
   */
  lemma FormatNumberSpec(n: nat)
    requires n <= MaxSafeInteger
    ensures Grouped(FormatNumber(n))
    ensures RemoveCommas(FormatNumber(n)) == Digits(n)
    ensures DigitsValue(RemoveCommas(FormatNumber(n))) == n
  {
    CommafyGrouped(Digits(n));
    RemoveCommasCommafy(Digits(n));
    DigitsRoundTrip(n);
  }

  /** The item counter's text for `n` displayed rows. */
  function ItemCountLabel(n: nat): string {
    Digits(n) + " item" + (if n != 1 then "s" else "")
  }

  /**
   * A digit string followed by " item", and "s" when `plural`: its last
   * character is 's' iff `plural`, and the digits are what precedes the
   * first space.
   */
  lemma DigitsThenItem(d: string, plural: bool)
    requires AllDigits(d)
    ensures var r := d + " item" + (if plural then "s" else "");
      && (r[|r| - 1] == 's' <==> plural)
      && ' ' in r && IndexOf(r, ' ') == |d| && r[..|d|] == d
  {
    var word := if plural then "items" else "item";
    var r := d + " item" + (if plural then "s" else "");
    assert r == d + [' '] + word;
    assert r[|r| - 1] == word[|word| - 1];
    assert r[|d|] == ' ';
    assert ' ' !in d by {
      forall i | 0 <= i < |d|
        ensures d[i] != ' '
      {
        assert IsDigit(d[i]);
      }
    }
    IndexOfAfter(d, ' ', word);
    assert r[..|d|] == d;
  }

  /**
   * The label is the decimal count, a space and "item", with "s" appended
   * exactly when the count is not one; the count reads back from the text
   * before the first space.
   */
  lemma ItemCountLabelSpec(n: nat)
    ensures ItemCountLabel(n) == Digits(n) + (if n == 1 then " item" else " items")
    ensures (ItemCountLabel(n)[|ItemCountLabel(n)| - 1] == 's') <==> n != 1
    ensures ' ' in ItemCountLabel(n)
    ensures var k := IndexOf(ItemCountLabel(n), ' ');
      AllDigits(ItemCountLabel(n)[..k]) && DigitsValue(ItemCountLabel(n)[..k]) == n
  {
    DigitsThenItem(Digits(n), n != 1);
    DigitsRoundTrip(n);
  }
}

=== FILE: rows.dfy ===
/**
 * The table body as the page script sees it: an ordered sequence of rows.
 * A row carries the texts of its cells, its whole text content, whether it
 * is displayed (its style.display is not 'none'), and whether it carries
 * the class `empty-state` that marks the "No items found" placeholder.
 */
module Rows {

  datatype Row = Row(cells: seq<string>, text: string, visible: bool, emptyState: bool)

  /** The placeholder row the live search appends: one cell, displayed. */
  const EmptyStateRow: Row := Row(["No items found"], "No items found", true, true)

  /** Number of displayed rows (the rows `tr:not([style*="display: none"])` selects). */
  function CountVisible(rows: seq<Row>): nat
    decreases |rows|
  {
    if |rows| == 0 then 0
    else CountVisible(rows[..|rows| - 1]) + (if rows[|rows| - 1].visible then 1 else 0)
  }

  /** The displayed rows, in table order. */
  function VisibleRows(rows: seq<Row>): seq<Row>
    decreases |rows|
  {
    if |rows| == 0 then []
    else VisibleRows(rows[..|rows| - 1]) + (if rows[|rows| - 1].visible then [rows[|rows| - 1]] else [])
  }

  /** Number of rows carrying the `empty-state` class. */
  function CountEmptyState(rows: seq<Row>): nat
    decreases |rows|
  {
    if |rows| == 0 then 0
    else CountEmptyState(rows[..|rows| - 1]) + (if rows[|rows| - 1].emptyState then 1 else 0)
  }

  /** `tbody.querySelector('.empty-state')` finds something. */
  predicate HasEmptyState(rows: seq<Row>) {
    exists i :: 0 <= i < |rows| && rows[i].emptyState
  }

  /**
   * Membership and count: a row is among the displayed rows exactly when it
   * is in the table and marked displayed, and there are CountVisible of
   * them. Their order is stated by `VisibleRowsOrder`.
   */
  lemma {:induction false} VisibleRowsSpec(rows: seq<Row>)
    ensures |VisibleRows(rows)| == CountVisible(rows)
    ensures forall r :: r in VisibleRows(rows) <==> r in rows && r.visible
    decreases |rows|
  {
    if |rows| > 0 {
      var init := rows[..|rows| - 1];
      VisibleRowsSpec(init);
      assert rows == init + [rows[|rows| - 1]];
    }
  }

  /** The positions of the displayed rows in the table, in increasing order. */
  function VisibleIndices(rows: seq<Row>): seq<int>
    decreases |rows|
  {
    if |rows| == 0 then []
    else VisibleIndices(rows[..|rows| - 1]) + (if rows[|rows| - 1].visible then [|rows| - 1] else [])
  }

  /** Each selected position holds a displayed row, and the k-th displayed row is the row there. */
  lemma {:induction false} VisibleIndicesPick(rows: seq<Row>)
    ensures |VisibleIndices(rows)| == |VisibleRows(rows)|
    ensures forall k :: 0 <= k < |VisibleIndices(rows)| ==>
      0 <= VisibleIndices(rows)[k] < |rows| && rows[VisibleIndices(rows)[k]].visible
      && VisibleRows(rows)[k] == rows[VisibleIndices(rows)[k]]
    decreases |rows|
  {
    if |rows| > 0 {
      var n := |rows| - 1;
      var init := rows[..n];
      VisibleIndicesPick(init);
      var idx0, vis0 := VisibleIndices(init), VisibleRows(init);
      forall k | 0 <= k < |idx0|
        ensures idx0[k] < n && rows[idx0[k]] == init[idx0[k]]
      {
      }
      if rows[n].visible {
        assert VisibleIndices(rows) == idx0 + [n];
        assert VisibleRows(rows) == vis0 + [rows[n]];
      }
    }
  }

  /** The selected positions strictly increase and are positions of the table. */
  lemma {:induction false} VisibleIndicesIncreasing(rows: seq<Row>)
    ensures forall k :: 0 <= k < |VisibleIndices(rows)| ==> 0 <= VisibleIndices(rows)[k] < |rows|
    ensures forall k, l :: 0 <= k < l < |VisibleIndices(rows)| ==> VisibleIndices(rows)[k] < VisibleIndices(rows)[l]
    decreases |rows|
  {
    if |rows| > 0 {
      var n := |rows| - 1;
      VisibleIndicesIncreasing(rows[..n]);
      if rows[n].visible {
        assert VisibleIndices(rows) == VisibleIndices(rows[..n]) + [n];
      }
    }
  }

  /** Every displayed row's position is selected. */
  lemma {:induction false} VisibleIndicesCover(rows: seq<Row>)
    ensures forall i :: 0 <= i < |rows| && rows[i].visible ==> i in VisibleIndices(rows)
    decreases |rows|
  {
    if |rows| > 0 {
      var n := |rows| - 1;
      var init := rows[..n];
      VisibleIndicesCover(init);
      forall i | 0 <= i < |rows| && rows[i].visible
        ensures i in VisibleIndices(rows)
      {
        if i < n {
          assert init[i] == rows[i];
        }
      }
    }
  }

  /**
   * The displayed rows are the rows at strictly increasing table positions,
   * one for every displayed row and nothing else: selection keeps table
   * order and multiplicity.
   */
  lemma VisibleRowsOrder(rows: seq<Row>)
    ensures var idx := VisibleIndices(rows);
      && |idx| == |VisibleRows(rows)|
      && (forall k :: 0 <= k < |idx| ==>
            0 <= idx[k] < |rows| && rows[idx[k]].visible && VisibleRows(rows)[k] == rows[idx[k]])
      && (forall k, l :: 0 <= k < l < |idx| ==> idx[k] < idx[l])
      && (forall i :: 0 <= i < |rows| && rows[i].visible ==> i in idx)
  {
    VisibleIndicesPick(rows);
    VisibleIndicesIncreasing(rows);
    VisibleIndicesCover(rows);
  }

  /** Selecting the displayed rows of two consecutive stretches of a table. */
  lemma {:induction false} VisibleRowsAppend(a: seq<Row>, b: seq<Row>)
    ensures VisibleRows(a + b) == VisibleRows(a) + VisibleRows(b)
    decreases |b|
  {
    if |b| > 0 {
      var ab := a + b;
      assert ab[..|ab| - 1] == a + b[..|b| - 1];
      VisibleRowsAppend(a, b[..|b| - 1]);
    } else {
      assert a + b == a;
    }
  }

  /** The count of displayed rows over two consecutive stretches adds up. */
  lemma {:induction false} CountVisibleAppend(a: seq<Row>, b: seq<Row>)
    ensures CountVisible(a + b) == CountVisible(a) + CountVisible(b)
    decreases |b|
  {
    if |b| > 0 {
      var ab := a + b;
      assert ab[..|ab| - 1] == a + b[..|b| - 1];
      CountVisibleAppend(a, b[..|b| - 1]);
    } else {
      assert a + b == a;
    }
  }

  /** A placeholder row is present exactly when the count of placeholder rows is positive. */
  lemma {:induction false} HasEmptyStateIff(rows: seq<Row>)
    ensures HasEmptyState(rows) <==> CountEmptyState(rows) > 0
    decreases |rows|
  {
    if |rows| > 0 {
      var init := rows[..|rows| - 1];
      HasEmptyStateIff(init);
      if HasEmptyState(init) {
        var i :| 0 <= i < |init| && init[i].emptyState;
        assert rows[i].emptyState;
      }
      if HasEmptyState(rows) && !rows[|rows| - 1].emptyState {
        var i :| 0 <= i < |rows| && rows[i].emptyState;
        assert init[i].emptyState;
      }
    }
  }
}

=== FILE: search.dfy ===
/**
 * One pass of the live search over the table body, as a function of the
 * rows before the pass and the query.
 *
 * SearchPass is the pass the page script performs: every row of the body,
 * the "No items found" placeholder included, is shown exactly when its
 * lower-cased text contains the lower-cased query; when no row was shown a
 * placeholder is appended unless one is already there; nothing ever
 * removes a placeholder.
 *
 * CorrectedPass is the pass the script evidently means: the placeholder is
 * left out of the matching and the counting, and it is displayed exactly
 * when no data row matched.
 */
module Search {
  import opened Text
  import opened Rows

  /** The filter test of one row. */
  predicate Matches(row: Row, query: string) {
    Includes(Lower(row.text), Lower(query))
  }

  /** One iteration of the per-row loop: display the row iff it matches. */
  function Mark(row: Row, query: string): Row {
    row.(visible := Matches(row, query))
  }

  /** The per-row loop over the whole body. */
  function FilterRows(rows: seq<Row>, query: string): seq<Row> {
    seq(|rows|, i requires 0 <= i < |rows| => Mark(rows[i], query))
  }

  /** The final value of the loop's `visibleCount`. */
  function CountMatches(rows: seq<Row>, query: string): nat
    decreases |rows|
  {
    if |rows| == 0 then 0
    else CountMatches(rows[..|rows| - 1], query) + (if Matches(rows[|rows| - 1], query) then 1 else 0)
  }

  /** The whole pass as the script performs it. */
  function SearchPass(rows: seq<Row>, query: string): seq<Row> {
    var marked := FilterRows(rows, query);
    if CountMatches(rows, query) == 0 && !HasEmptyState(marked) then marked + [EmptyStateRow]
    else marked
  }

  /** Two bodies whose rows agree on everything but display. */
  predicate SameContent(a: seq<Row>, b: seq<Row>) {
    |a| == |b|
    && forall i :: 0 <= i < |a| ==>
         a[i].cells == b[i].cells && a[i].text == b[i].text && a[i].emptyState == b[i].emptyState
  }

  /** Matching ignores display state, so bodies with the same content match alike. */
  lemma {:induction false} CountMatchesContent(a: seq<Row>, b: seq<Row>, query: string)
    requires SameContent(a, b)
    ensures CountMatches(a, query) == CountMatches(b, query)
    ensures CountEmptyState(a) == CountEmptyState(b)
    ensures CountDataMatches(a, query) == CountDataMatches(b, query)
    decreases |a|
  {
    if |a| > 0 {
      CountMatchesContent(a[..|a| - 1], b[..|b| - 1], query);
    }
  }

  /**
   * After the loop every row is displayed iff it matches, nothing but the
   * display changed, and `visibleCount` is the number of displayed rows.
   */
  lemma {:induction false} FilterMarksMatches(rows: seq<Row>, query: string)
    ensures var f := FilterRows(rows, query);
      && SameContent(f, rows)
      && (forall i :: 0 <= i < |rows| ==> (f[i].visible <==> Matches(rows[i], query)))
      && CountVisible(f) == CountMatches(rows, query)
    decreases |rows|
  {
    if |rows| > 0 {
      var init := rows[..|rows| - 1];
      FilterMarksMatches(init, query);
      var f := FilterRows(rows, query);
      assert f[..|f| - 1] == FilterRows(init, query);
    }
  }

  /** The empty query matches every row, so a pass with it displays every row of the body. */
  lemma {:induction false} EmptyQueryShowsAll(rows: seq<Row>)
    ensures CountMatches(rows, "") == |rows|
    ensures forall i :: 0 <= i < |rows| ==> SearchPass(rows, "")[i].visible
    decreases |rows|
  {
    if |rows| > 0 {
      EmptyQueryShowsAll(rows[..|rows| - 1]);
      assert Lower("") == "";
    }
  }

  /**
   * A pass never removes a placeholder and never adds a second one: it adds
   * exactly one when no row matched and none was there, and otherwise
   * leaves the number of placeholders as it was.
   */
  lemma SearchPassPlaceholders(rows: seq<Row>, query: string)
    ensures CountEmptyState(SearchPass(rows, query)) ==
      if CountMatches(rows, query) == 0 && CountEmptyState(rows) == 0 then 1
      else CountEmptyState(rows)
  {
    var f := FilterRows(rows, query);
    FilterMarksMatches(rows, query);
    CountMatchesContent(f, rows, query);
    HasEmptyStateIff(f);
    assert (f + [EmptyStateRow])[..|f|] == f;
  }

  /**
   * Starting from at most one placeholder, a zero-result pass leaves exactly
   * one, and repeating the same pass does not add a second.
   */
  lemma ZeroResultPassesKeepOnePlaceholder(rows: seq<Row>, query: string)
    requires CountEmptyState(rows) <= 1
    requires CountMatches(rows, query) == 0
    ensures CountEmptyState(SearchPass(rows, query)) == 1
    ensures CountEmptyState(SearchPass(SearchPass(rows, query), query)) == 1
  {
    SearchPassPlaceholders(rows, query);
    SearchPassPlaceholders(SearchPass(rows, query), query);
  }

  /**
   * The placeholder is itself a body row, so the next pass filters it too:
   * with no data row matching and a query that does not occur in its text,
   * the first pass appends a displayed placeholder and the very next pass
   * with the same query hides it, leaving nothing displayed.
   */
  lemma RepeatedMissHidesPlaceholder(rows: seq<Row>, query: string)
    requires CountEmptyState(rows) == 0
    requires CountMatches(rows, query) == 0
    requires !Includes(Lower(EmptyStateRow.text), Lower(query))
    ensures var once := SearchPass(rows, query);
      |once| == |rows| + 1 && once[|rows|] == EmptyStateRow && once[|rows|].visible
    ensures var twice := SearchPass(SearchPass(rows, query), query);
      |twice| == |rows| + 1 && twice[|rows|].emptyState && !twice[|rows|].visible
      && CountVisible(twice) == 0
  {
    HasEmptyStateIff(FilterRows(rows, query));
    FilterMarksMatches(rows, query);
    CountMatchesContent(FilterRows(rows, query), rows, query);
    var once := SearchPass(rows, query);
    assert once == FilterRows(rows, query) + [EmptyStateRow];
    assert once[..|rows|] == FilterRows(rows, query);
    assert CountMatches(once, query) == 0;
    FilterMarksMatches(once, query);
    assert once[|rows|].emptyState;
    var twice := SearchPass(once, query);
    assert twice == FilterRows(once, query);
  }

  /** The placeholder text holds no `z` in either case. */
  lemma PlaceholderLacksZ()
    ensures 'z' !in EmptyStateRow.text && 'Z' !in EmptyStateRow.text
  {
  }

  /** The row text of the example below holds no `z` in either case. */
  lemma MilkRowLacksZ()
    ensures 'z' !in "Milk 3 Delete" && 'Z' !in "Milk 3 Delete"
  {
  }

  /**
   * The concrete case: one "Milk" row and the query "zzz" typed and then
   * searched again. After the first pass "No items found" is displayed;
   * after the second it is hidden and nothing at all is displayed.
   */
  lemma HiddenPlaceholderExample(rows: seq<Row>, query: string)
    requires rows == [Row(["Milk", "3", "Delete"], "Milk 3 Delete", true, false)]
    requires query == "zzz"
    ensures var once := SearchPass(rows, query);
      var twice := SearchPass(once, query);
      && |once| == 2 && once[1] == EmptyStateRow && once[1].visible
      && |twice| == 2 && twice[1].emptyState && !twice[1].visible && CountVisible(twice) == 0
  {
    PlaceholderLacksZ();
    MilkRowLacksZ();
    assert Lower(query)[0] == 'z';
    LowerKeepsOut(rows[0].text, 'z');
    LowerKeepsOut(EmptyStateRow.text, 'z');
    MissingCharExcludes(Lower(rows[0].text), Lower(query), 'z');
    MissingCharExcludes(Lower(EmptyStateRow.text), Lower(query), 'z');
    assert rows[..0] == [];
    RepeatedMissHidesPlaceholder(rows, query);
  }

  // ---------------------------------------------------------------------
  // The corrected pass
  // ---------------------------------------------------------------------

  /** Number of matching rows that are not placeholders. */
  function CountDataMatches(rows: seq<Row>, query: string): nat
    decreases |rows|
  {
    if |rows| == 0 then 0
    else
      var last := rows[|rows| - 1];
      CountDataMatches(rows[..|rows| - 1], query) + (if !last.emptyState && Matches(last, query) then 1 else 0)
  }

  /** A data row is filtered; a placeholder is displayed iff nothing matched. */
  function Show(row: Row, query: string, noMatches: bool): Row {
    if row.emptyState then row.(visible := noMatches) else Mark(row, query)
  }

  function CorrectedPass(rows: seq<Row>, query: string): seq<Row> {
    var none := CountDataMatches(rows, query) == 0;
    var marked := seq(|rows|, i requires 0 <= i < |rows| => Show(rows[i], query, none));
    if none && !HasEmptyState(marked) then marked + [EmptyStateRow] else marked
  }

  /**
   * The corrected pass filters data rows exactly as the script does, keeps
   * the placeholders it finds, changing only their display, adds one only
   * when nothing matched and none was there, and displays every
   * placeholder iff no data row matched.
   */
  lemma CorrectedPassSpec(rows: seq<Row>, query: string)
    ensures var r := CorrectedPass(rows, query);
      var none := CountDataMatches(rows, query) == 0;
      && |r| == |rows| + (if none && CountEmptyState(rows) == 0 then 1 else 0)
      && (forall i :: 0 <= i < |rows| && !rows[i].emptyState ==> r[i] == SearchPass(rows, query)[i])
      && (forall i :: 0 <= i < |rows| && rows[i].emptyState ==> r[i] == rows[i].(visible := none))
      && (|r| > |rows| ==> r[|rows|] == EmptyStateRow)
      && (forall i :: 0 <= i < |r| && r[i].emptyState ==> (r[i].visible <==> none))
      && (none ==> HasEmptyState(r))
      && CountEmptyState(r) == (if none && CountEmptyState(rows) == 0 then 1 else CountEmptyState(rows))
      && CountDataMatches(r, query) == CountDataMatches(rows, query)
  {
    var none := CountDataMatches(rows, query) == 0;
    var marked := seq(|rows|, i requires 0 <= i < |rows| => Show(rows[i], query, none));
    assert SameContent(marked, rows);
    CountMatchesContent(marked, rows, query);
    HasEmptyStateIff(marked);
    var r := CorrectedPass(rows, query);
    if none && !HasEmptyState(marked) {
      assert r[..|marked|] == marked;
      assert r[|marked|].emptyState;
    }
  }

  /** Unlike the script's pass, the corrected pass gives the same body when repeated. */
  lemma CorrectedPassIdempotent(rows: seq<Row>, query: string)
    ensures CorrectedPass(CorrectedPass(rows, query), query) == CorrectedPass(rows, query)
  {
    CorrectedPassSpec(rows, query);
    var r := CorrectedPass(rows, query);
    var none := CountDataMatches(rows, query) == 0;
    var marked := seq(|r|, i requires 0 <= i < |r| => Show(r[i], query, none));
    assert marked == r;
  }
}

=== FILE: sorting.dfy ===
/**
 * The reordering done by the column sort. The page script compares two
 * rows by the text of their cell at `columnIndex`: numerically when both
 * texts parse as numbers, by locale collation otherwise. Both comparisons
 * are outside this model; the comparison is a parameter `le` on cell
 * texts, assumed to be a total preorder. The order argument is ascending
 * when it is exactly "asc" and descending (the comparator with its
 * arguments swapped) otherwise. Array.prototype.sort is stable; it is
 * modelled by a stable insertion sort.
 */
module Sorting {
  import opened Rows

  /** `le` is reflexive, transitive and relates every pair one way or the other. */
  ghost predicate TotalPreorder(le: (string, string) -> bool) {
    && (forall a :: le(a, a))
    && (forall a, b, c :: le(a, b) && le(b, c) ==> le(a, c))
    && (forall a, b :: le(a, b) || le(b, a))
  }

  /** `rows.sort` reads `cells[columnIndex]` of a row; only rows that have it are compared. */
  predicate HasCell(row: Row, columnIndex: int) {
    0 <= columnIndex < |row.cells|
  }

  /** The text the comparator reads from a row. */
  function Key(row: Row, columnIndex: int): string {
    if HasCell(row, columnIndex) then row.cells[columnIndex] else ""
  }

  predicate Ascending(order: string) {
    order == "asc"
  }

  /** `a` may stay before `b`: the comparator does not put `b` first. */
  predicate Before(a: Row, b: Row, columnIndex: int, order: string, le: (string, string) -> bool) {
    if Ascending(order) then le(Key(a, columnIndex), Key(b, columnIndex))
    else le(Key(b, columnIndex), Key(a, columnIndex))
  }

  /** Every row is ordered before every later row. */
  predicate Sorted(s: seq<Row>, columnIndex: int, order: string, le: (string, string) -> bool) {
    forall i, j :: 0 <= i < j < |s| ==> Before(s[i], s[j], columnIndex, order, le)
  }

  /** Inserts `x` after every row of the sorted `s` that is not strictly greater. */
  function Insert(s: seq<Row>, x: Row, columnIndex: int, order: string, le: (string, string) -> bool): seq<Row>
    decreases |s|
  {
    if |s| == 0 then [x]
    else if Before(s[0], x, columnIndex, order, le) then [s[0]] + Insert(s[1..], x, columnIndex, order, le)
    else [x] + s
  }

  /** The rows after `rows.sort(comparator)`. */
  function SortRows(rows: seq<Row>, columnIndex: int, order: string, le: (string, string) -> bool): seq<Row>
    decreases |rows|
  {
    if |rows| == 0 then []
    else Insert(SortRows(rows[..|rows| - 1], columnIndex, order, le), rows[|rows| - 1], columnIndex, order, le)
  }

  lemma {:induction false} InsertPermutation(s: seq<Row>, x: Row, columnIndex: int, order: string, le: (string, string) -> bool)
    ensures multiset(Insert(s, x, columnIndex, order, le)) == multiset(s) + multiset{x}
    decreases |s|
  {
    if |s| > 0 && Before(s[0], x, columnIndex, order, le) {
      InsertPermutation(s[1..], x, columnIndex, order, le);
      assert s == [s[0]] + s[1..];
    }
  }

  /** The sort neither adds nor loses a row: its result is a permutation of its input. */
  lemma {:induction false} SortRowsPermutation(rows: seq<Row>, columnIndex: int, order: string, le: (string, string) -> bool)
    ensures multiset(SortRows(rows, columnIndex, order, le)) == multiset(rows)
    decreases |rows|
  {
    if |rows| > 0 {
      var init := rows[..|rows| - 1];
      SortRowsPermutation(init, columnIndex, order, le);
      InsertPermutation(SortRows(init, columnIndex, order, le), rows[|rows| - 1], columnIndex, order, le);
      assert rows == init + [rows[|rows| - 1]];
    }
  }

  /** A row ordered before every row of a sorted sequence can go in front of it. */
  lemma SortedCons(h: Row, s: seq<Row>, columnIndex: int, order: string, le: (string, string) -> bool)
    requires Sorted(s, columnIndex, order, le)
    requires forall j :: 0 <= j < |s| ==> Before(h, s[j], columnIndex, order, le)
    ensures Sorted([h] + s, columnIndex, order, le)
  {
    var r := [h] + s;
    forall i, j | 0 <= i < j < |r|
      ensures Before(r[i], r[j], columnIndex, order, le)
    {
      assert r[j] == s[j - 1];
      if i > 0 {
        assert r[i] == s[i - 1];
      }
    }
  }

  lemma {:induction false} InsertSorted(s: seq<Row>, x: Row, columnIndex: int, order: string, le: (string, string) -> bool)
    requires TotalPreorder(le)
    requires Sorted(s, columnIndex, order, le)
    ensures Sorted(Insert(s, x, columnIndex, order, le), columnIndex, order, le)
    decreases |s|
  {
    if |s| == 0 {
    } else if Before(s[0], x, columnIndex, order, le) {
      var rest := Insert(s[1..], x, columnIndex, order, le);
      assert Insert(s, x, columnIndex, order, le) == [s[0]] + rest;
      assert Sorted(s[1..], columnIndex, order, le);
      InsertSorted(s[1..], x, columnIndex, order, le);
      assert forall j :: 0 <= j < |rest| ==> Before(s[0], rest[j], columnIndex, order, le) by {
        InsertPermutation(s[1..], x, columnIndex, order, le);
        forall j | 0 <= j < |rest|
          ensures Before(s[0], rest[j], columnIndex, order, le)
        {
          assert rest[j] in multiset(rest);
          if rest[j] != x {
            assert rest[j] in multiset(s[1..]);
            var k :| 0 <= k < |s[1..]| && s[1..][k] == rest[j];
            assert s[k + 1] == rest[j];
          }
        }
      }
      SortedCons(s[0], rest, columnIndex, order, le);
    } else {
      assert Insert(s, x, columnIndex, order, le) == [x] + s;
      assert forall j :: 0 <= j < |s| ==> Before(x, s[j], columnIndex, order, le) by {
        assert Before(x, s[0], columnIndex, order, le);
        forall j | 0 < j < |s|
          ensures Before(x, s[j], columnIndex, order, le)
        {
          assert Before(s[0], s[j], columnIndex, order, le);
        }
      }
      SortedCons(x, s, columnIndex, order, le);
    }
  }

  /** Every row ends up ordered before every later row. */
  lemma {:induction false} SortRowsSorted(rows: seq<Row>, columnIndex: int, order: string, le: (string, string) -> bool)
    requires TotalPreorder(le)
    ensures Sorted(SortRows(rows, columnIndex, order, le), columnIndex, order, le)
    decreases |rows|
  {
    if |rows| > 0 {
      var init := rows[..|rows| - 1];
      SortRowsSorted(init, columnIndex, order, le);
      InsertSorted(SortRows(init, columnIndex, order, le), rows[|rows| - 1], columnIndex, order, le);
    }
  }

  // ---------------------------------------------------------------------
  // Descending is the mirror of ascending
  // ---------------------------------------------------------------------

  /** The comparator calls two rows equal. */
  predicate Tied(a: Row, b: Row, columnIndex: int, le: (string, string) -> bool) {
    le(Key(a, columnIndex), Key(b, columnIndex)) && le(Key(b, columnIndex), Key(a, columnIndex))
  }

  /** Only equal rows compare equal. */
  predicate NoTies(rows: multiset<Row>, columnIndex: int, le: (string, string) -> bool) {
    forall a, b :: a in rows && b in rows && Tied(a, b, columnIndex, le) ==> a == b
  }

  function Reverse(s: seq<Row>): (r: seq<Row>)
    ensures |r| == |s|
    ensures forall i :: 0 <= i < |s| ==> r[i] == s[|s| - 1 - i]
  {
    if |s| == 0 then [] else Reverse(s[1..]) + [s[0]]
  }

  lemma {:induction false} ReversePermutation(s: seq<Row>)
    ensures multiset(Reverse(s)) == multiset(s)
    decreases |s|
  {
    if |s| > 0 {
      ReversePermutation(s[1..]);
      assert s == [s[0]] + s[1..];
    }
  }

  lemma NoTiesShrink(small: multiset<Row>, big: multiset<Row>, columnIndex: int, le: (string, string) -> bool)
    requires small <= big
    requires NoTies(big, columnIndex, le)
    ensures NoTies(small, columnIndex, le)
  {
  }

  /** Two sorted arrangements of the same rows without ties start with the same row. */
  lemma SortedHeads(a: seq<Row>, b: seq<Row>, columnIndex: int, order: string, le: (string, string) -> bool)
    requires |a| > 0 && multiset(a) == multiset(b)
    requires NoTies(multiset(a), columnIndex, le)
    requires Sorted(a, columnIndex, order, le) && Sorted(b, columnIndex, order, le)
    ensures |b| > 0 && a[0] == b[0]
  {
    assert a[0] in multiset(b);
    var j :| 0 <= j < |b| && b[j] == a[0];
    assert b[0] in multiset(a);
    var i :| 0 <= i < |a| && a[i] == b[0];
    assert i != 0 ==> Before(a[0], a[i], columnIndex, order, le);
    assert j != 0 ==> Before(b[0], b[j], columnIndex, order, le);
    assert Tied(a[0], b[0], columnIndex, le) || a[0] == b[0];
  }

  /** Equal collections with equal first rows have equal rests, still without ties. */
  lemma SameTails(a: seq<Row>, b: seq<Row>, columnIndex: int, le: (string, string) -> bool)
    requires |a| > 0 && |b| > 0 && a[0] == b[0] && multiset(a) == multiset(b)
    requires NoTies(multiset(a), columnIndex, le)
    ensures multiset(a[1..]) == multiset(b[1..])
    ensures NoTies(multiset(a[1..]), columnIndex, le)
  {
    assert a == [a[0]] + a[1..] && b == [b[0]] + b[1..];
    assert multiset(a[1..]) == multiset(a) - multiset{a[0]};
    assert multiset(b[1..]) == multiset(b) - multiset{b[0]};
    NoTiesShrink(multiset(a[1..]), multiset(a), columnIndex, le);
  }

  lemma SortedTail(a: seq<Row>, columnIndex: int, order: string, le: (string, string) -> bool)
    requires |a| > 0 && Sorted(a, columnIndex, order, le)
    ensures Sorted(a[1..], columnIndex, order, le)
  {
  }

  /** Without ties there is only one sorted arrangement of a collection of rows. */
  lemma {:induction false} SortedUnique(a: seq<Row>, b: seq<Row>, columnIndex: int, order: string, le: (string, string) -> bool)
    requires multiset(a) == multiset(b)
    requires NoTies(multiset(a), columnIndex, le)
    requires Sorted(a, columnIndex, order, le) && Sorted(b, columnIndex, order, le)
    ensures a == b
    decreases |a|
  {
    if |a| == 0 {
      assert |b| == |multiset(b)| == 0;
    } else {
      SortedHeads(a, b, columnIndex, order, le);
      SameTails(a, b, columnIndex, le);
      SortedTail(a, columnIndex, order, le);
      SortedTail(b, columnIndex, order, le);
      SortedUnique(a[1..], b[1..], columnIndex, order, le);
      assert a == [a[0]] + a[1..] && b == [b[0]] + b[1..];
    }
  }

  // ---------------------------------------------------------------------
  // Stability
  // ---------------------------------------------------------------------

  /** The rows of `s` the comparator calls equal to `t`, in their order in `s`. */
  function TieClass(s: seq<Row>, t: Row, columnIndex: int, le: (string, string) -> bool): seq<Row>
    decreases |s|
  {
    if |s| == 0 then []
    else (if Tied(s[0], t, columnIndex, le) then [s[0]] else []) + TieClass(s[1..], t, columnIndex, le)
  }

  lemma {:induction false} TieClassAppend(a: seq<Row>, b: seq<Row>, t: Row, columnIndex: int, le: (string, string) -> bool)
    ensures TieClass(a + b, t, columnIndex, le) == TieClass(a, t, columnIndex, le) + TieClass(b, t, columnIndex, le)
    decreases |a|
  {
    if |a| == 0 {
      assert a + b == b;
    } else {
      assert (a + b)[1..] == a[1..] + b;
      TieClassAppend(a[1..], b, t, columnIndex, le);
    }
  }

  lemma {:induction false} NoTiedEmpty(s: seq<Row>, t: Row, columnIndex: int, le: (string, string) -> bool)
    requires forall j :: 0 <= j < |s| ==> !Tied(s[j], t, columnIndex, le)
    ensures TieClass(s, t, columnIndex, le) == []
    decreases |s|
  {
    if |s| > 0 {
      NoTiedEmpty(s[1..], t, columnIndex, le);
    }
  }

  /** A row that goes strictly before the first row of a sorted sequence is tied with none of its rows. */
  lemma StrictlyFirstNotTied(s: seq<Row>, x: Row, t: Row, columnIndex: int, order: string, le: (string, string) -> bool)
    requires TotalPreorder(le)
    requires Sorted(s, columnIndex, order, le) && |s| > 0
    requires !Before(s[0], x, columnIndex, order, le) && Tied(x, t, columnIndex, le)
    ensures forall j :: 0 <= j < |s| ==> !Tied(s[j], t, columnIndex, le)
  {
    forall j | 0 <= j < |s|
      ensures !Tied(s[j], t, columnIndex, le)
    {
      assert j > 0 ==> Before(s[0], s[j], columnIndex, order, le);
    }
  }

  /** Inserting `x` into a sorted sequence puts it after every row it is tied with. */
  lemma {:induction false} InsertStable(s: seq<Row>, x: Row, t: Row, columnIndex: int, order: string, le: (string, string) -> bool)
    requires TotalPreorder(le)
    requires Sorted(s, columnIndex, order, le)
    ensures TieClass(Insert(s, x, columnIndex, order, le), t, columnIndex, le)
      == TieClass(s, t, columnIndex, le) + (if Tied(x, t, columnIndex, le) then [x] else [])
    decreases |s|
  {
    var tail := if Tied(x, t, columnIndex, le) then [x] else [];
    if |s| == 0 {
      assert TieClass([x], t, columnIndex, le) == tail + TieClass([], t, columnIndex, le);
    } else if Before(s[0], x, columnIndex, order, le) {
      var rest := Insert(s[1..], x, columnIndex, order, le);
      var ins := [s[0]] + rest;
      var head := if Tied(s[0], t, columnIndex, le) then [s[0]] else [];
      SortedTail(s, columnIndex, order, le);
      InsertStable(s[1..], x, t, columnIndex, order, le);
      calc {
        TieClass(ins, t, columnIndex, le);
        { assert ins[0] == s[0] && ins[1..] == rest; }
        head + TieClass(rest, t, columnIndex, le);
        head + (TieClass(s[1..], t, columnIndex, le) + tail);
        (head + TieClass(s[1..], t, columnIndex, le)) + tail;
        TieClass(s, t, columnIndex, le) + tail;
      }
    } else {
      var ins := [x] + s;
      assert ins[0] == x && ins[1..] == s;
      if Tied(x, t, columnIndex, le) {
        StrictlyFirstNotTied(s, x, t, columnIndex, order, le);
        NoTiedEmpty(s, t, columnIndex, le);
      }
    }
  }

  /**
   * The sort is stable: the rows the comparator calls equal to any `t` keep
   * their relative order.
   */
  lemma {:induction false} SortRowsStable(rows: seq<Row>, t: Row, columnIndex: int, order: string, le: (string, string) -> bool)
    requires TotalPreorder(le)
    ensures TieClass(SortRows(rows, columnIndex, order, le), t, columnIndex, le) == TieClass(rows, t, columnIndex, le)
    decreases |rows|
  {
    if |rows| > 0 {
      var init, last := rows[..|rows| - 1], rows[|rows| - 1];
      SortRowsStable(init, t, columnIndex, order, le);
      SortRowsSorted(init, columnIndex, order, le);
      InsertStable(SortRows(init, columnIndex, order, le), last, t, columnIndex, order, le);
      assert rows == init + [last];
      TieClassAppend(init, [last], t, columnIndex, le);
      assert TieClass([last], t, columnIndex, le) == (if Tied(last, t, columnIndex, le) then [last] else []) + TieClass([], t, columnIndex, le);
    }
  }

  /** Two sorted arrangements with the same tie classes start with the same row. */
  lemma StableHeads(a: seq<Row>, b: seq<Row>, columnIndex: int, order: string, le: (string, string) -> bool)
    requires TotalPreorder(le)
    requires |a| > 0 && multiset(a) == multiset(b)
    requires Sorted(a, columnIndex, order, le) && Sorted(b, columnIndex, order, le)
    requires TieClass(a, a[0], columnIndex, le) == TieClass(b, a[0], columnIndex, le)
    ensures |b| > 0 && a[0] == b[0]
  {
    assert a[0] in multiset(b);
    var j :| 0 <= j < |b| && b[j] == a[0];
    assert b[0] in multiset(a);
    var i :| 0 <= i < |a| && a[i] == b[0];
    assert i != 0 ==> Before(a[0], a[i], columnIndex, order, le);
    assert j != 0 ==> Before(b[0], b[j], columnIndex, order, le);
    assert Tied(a[0], a[0], columnIndex, le) && Tied(b[0], a[0], columnIndex, le);
    assert TieClass(a, a[0], columnIndex, le)[0] == a[0];
    assert TieClass(b, a[0], columnIndex, le)[0] == b[0];
  }

  /** Equal collections with equal first rows and equal tie classes have rests of the same kind. */
  lemma StableTails(a: seq<Row>, b: seq<Row>, columnIndex: int, le: (string, string) -> bool)
    requires |a| > 0 && |b| > 0 && a[0] == b[0] && multiset(a) == multiset(b)
    requires forall t :: TieClass(a, t, columnIndex, le) == TieClass(b, t, columnIndex, le)
    ensures multiset(a[1..]) == multiset(b[1..])
    ensures forall t :: TieClass(a[1..], t, columnIndex, le) == TieClass(b[1..], t, columnIndex, le)
  {
    assert a == [a[0]] + a[1..] && b == [b[0]] + b[1..];
    assert multiset(a[1..]) == multiset(a) - multiset{a[0]};
    assert multiset(b[1..]) == multiset(b) - multiset{b[0]};
    forall t
      ensures TieClass(a[1..], t, columnIndex, le) == TieClass(b[1..], t, columnIndex, le)
    {
      var head := if Tied(a[0], t, columnIndex, le) then [a[0]] else [];
      var ta, tb := TieClass(a[1..], t, columnIndex, le), TieClass(b[1..], t, columnIndex, le);
      var whole := TieClass(a, t, columnIndex, le);
      assert whole == head + ta;
      assert whole == head + tb;
      assert ta == whole[|head|..] == tb;
    }
  }

  /**
   * A sorted permutation is determined by its tie classes: two sorted
   * arrangements of the same rows that keep every tie class in the same
   * order are equal.
   */
  lemma {:induction false} SortedStableUnique(a: seq<Row>, b: seq<Row>, columnIndex: int, order: string, le: (string, string) -> bool)
    requires TotalPreorder(le)
    requires multiset(a) == multiset(b)
    requires Sorted(a, columnIndex, order, le) && Sorted(b, columnIndex, order, le)
    requires forall t :: TieClass(a, t, columnIndex, le) == TieClass(b, t, columnIndex, le)
    ensures a == b
    decreases |a|
  {
    if |a| == 0 {
      assert |b| == |multiset(b)| == 0;
    } else {
      StableHeads(a, b, columnIndex, order, le);
      StableTails(a, b, columnIndex, le);
      SortedTail(a, columnIndex, order, le);
      SortedTail(b, columnIndex, order, le);
      SortedStableUnique(a[1..], b[1..], columnIndex, order, le);
      assert a == [a[0]] + a[1..] && b == [b[0]] + b[1..];
    }
  }

  /**
   * Any stable sort gives the body this model gives: a sorted permutation
   * of the rows that keeps every tie class in its original order is
   * `SortRows`.
   */
  lemma StableSortIsSortRows(rows: seq<Row>, sorted: seq<Row>, columnIndex: int, order: string, le: (string, string) -> bool)
    requires TotalPreorder(le)
    requires multiset(sorted) == multiset(rows) && Sorted(sorted, columnIndex, order, le)
    requires forall t :: TieClass(sorted, t, columnIndex, le) == TieClass(rows, t, columnIndex, le)
    ensures sorted == SortRows(rows, columnIndex, order, le)
  {
    var mine := SortRows(rows, columnIndex, order, le);
    SortRowsPermutation(rows, columnIndex, order, le);
    SortRowsSorted(rows, columnIndex, order, le);
    forall t
      ensures TieClass(sorted, t, columnIndex, le) == TieClass(mine, t, columnIndex, le)
    {
      SortRowsStable(rows, t, columnIndex, order, le);
    }
    SortedStableUnique(sorted, mine, columnIndex, order, le);
  }

  /**
   * Sorting with any order other than "asc" gives the exact reverse of the
   * ascending sort when no two distinct rows compare equal.
   */
  lemma SortDescendingMirrorsAscending(rows: seq<Row>, columnIndex: int, order: string, le: (string, string) -> bool)
    requires TotalPreorder(le)
    requires !Ascending(order)
    requires NoTies(multiset(rows), columnIndex, le)
    ensures SortRows(rows, columnIndex, order, le) == Reverse(SortRows(rows, columnIndex, "asc", le))
  {
    var up := SortRows(rows, columnIndex, "asc", le);
    var down := SortRows(rows, columnIndex, order, le);
    SortRowsPermutation(rows, columnIndex, "asc", le);
    SortRowsPermutation(rows, columnIndex, order, le);
    SortRowsSorted(rows, columnIndex, "asc", le);
    SortRowsSorted(rows, columnIndex, order, le);
    ReversePermutation(up);
    var rev := Reverse(up);
    forall i, j | 0 <= i < j < |rev|
      ensures Before(rev[i], rev[j], columnIndex, order, le)
    {
      assert Before(up[|up| - 1 - j], up[|up| - 1 - i], columnIndex, "asc", le);
    }
    SortedUnique(down, rev, columnIndex, order, le);
  }
}

=== FILE: table.dfy ===
/**
 * The inventory table of the page: its header texts, the rows of its body
 * and the text of the item counter (absent when the page has no counter).
 * The live search and the column sort change the body in place; the CSV
 * export and the counter read it.
 */
module TableView {
  import opened Wrappers
  import opened Text
  import opened Rows
  import opened Search
  import opened Sorting
  import opened Csv
  import opened Format

  /** What the comparator throws when it reads the text of a missing cell. */
  datatype SortFault = TypeError

  /** Some comparison reads a cell a row does not have: only when at least two rows are compared. */
  predicate ComparatorThrows(rows: seq<Row>, columnIndex: int) {
    |rows| >= 2 && exists k :: 0 <= k < |rows| && !HasCell(rows[k], columnIndex)
  }

  class Table {
    var headers: seq<string>
    var rows: seq<Row>
    var counter: Option<string>

    constructor (headers: seq<string>, rows: seq<Row>, counter: Option<string>)
      ensures this.headers == headers && this.rows == rows && this.counter == counter
    {
      this.headers := headers;
      this.rows := rows;
      this.counter := counter;
    }

    /**
     * One live-search pass as the page script performs it. Each row is
     * displayed iff its lower-cased text contains the lower-cased query, and
     * `visibleCount` counts the displayed ones; when it ends at zero and no
     * placeholder is present, the placeholder is appended.
     */
    method LiveSearch(query: string) returns (visibleCount: nat)
      modifies this`rows
      ensures visibleCount == CountMatches(old(rows), query)
      ensures visibleCount == CountVisible(FilterRows(old(rows), query))
      ensures rows == SearchPass(old(rows), query)
    {
      ghost var before := rows;
      visibleCount := MarkRows(query);
      FilterMarksMatches(before, query);
      if visibleCount == 0 {
        if !HasEmptyState(rows) {
          rows := rows + [EmptyStateRow];
        }
      }
    }

    /** The per-row loop: displays each row iff it matches, counting the displayed ones. */
    method MarkRows(query: string) returns (count: nat)
      modifies this`rows
      ensures count == CountMatches(old(rows), query)
      ensures rows == FilterRows(old(rows), query)
    {
      ghost var before := rows;
      var needle := Lower(query);
      count := 0;
      var i := 0;
      while i < |rows|
        invariant 0 <= i <= |rows| == |before|
        invariant forall k :: 0 <= k < i ==> rows[k] == Mark(before[k], query)
        invariant forall k :: i <= k < |rows| ==> rows[k] == before[k]
        invariant count == CountMatches(before[..i], query)
      {
        var row := rows[i];
        assert CountMatches(before[..i + 1], query)
          == CountMatches(before[..i], query) + (if Matches(row, query) then 1 else 0) by {
          assert before[..i + 1][..i] == before[..i];
        }
        if Includes(Lower(row.text), needle) {
          rows := rows[i := row.(visible := true)];
          count := count + 1;
        } else {
          rows := rows[i := row.(visible := false)];
        }
        i := i + 1;
      }
      assert before[..i] == before;
    }

    /**
     * The live-search pass with the placeholder kept out of the filter: data
     * rows are filtered and counted as before, then every placeholder is
     * displayed iff no data row matched, and one is appended when nothing
     * matched and none is present.
     */
    method LiveSearchCorrected(query: string) returns (visibleCount: nat)
      modifies this`rows
      ensures visibleCount == CountDataMatches(old(rows), query)
      ensures rows == CorrectedPass(old(rows), query)
    {
      ghost var before := rows;
      visibleCount := FilterDataRows(query);
      var none := visibleCount == 0;
      ShowPlaceholders(none);
      assert rows == seq(|before|, k requires 0 <= k < |before| => Show(before[k], query, none));
      if none && !HasEmptyState(rows) {
        rows := rows + [EmptyStateRow];
      }
    }

    /** Displays each data row iff it matches, counting the displayed ones; placeholders are left alone. */
    method FilterDataRows(query: string) returns (count: nat)
      modifies this`rows
      ensures count == CountDataMatches(old(rows), query)
      ensures |rows| == |old(rows)|
      ensures forall k :: 0 <= k < |rows| ==>
        rows[k] == if old(rows)[k].emptyState then old(rows)[k] else Mark(old(rows)[k], query)
    {
      ghost var before := rows;
      var needle := Lower(query);
      count := 0;
      var i := 0;
      while i < |rows|
        invariant 0 <= i <= |rows| == |before|
        invariant forall k :: 0 <= k < i ==> rows[k] == if before[k].emptyState then before[k] else Mark(before[k], query)
        invariant forall k :: i <= k < |rows| ==> rows[k] == before[k]
        invariant count == CountDataMatches(before[..i], query)
      {
        var row := rows[i];
        assert CountDataMatches(before[..i + 1], query)
          == CountDataMatches(before[..i], query) + (if !row.emptyState && Matches(row, query) then 1 else 0) by {
          assert before[..i + 1][..i] == before[..i];
        }
        if !row.emptyState {
          if Includes(Lower(row.text), needle) {
            rows := rows[i := row.(visible := true)];
            count := count + 1;
          } else {
            rows := rows[i := row.(visible := false)];
          }
        }
        i := i + 1;
      }
      assert before[..i] == before;
    }

    /** Sets the display of every placeholder row to `shown`; data rows are left alone. */
    method ShowPlaceholders(shown: bool)
      modifies this`rows
      ensures |rows| == |old(rows)|
      ensures forall k :: 0 <= k < |rows| ==>
        rows[k] == if old(rows)[k].emptyState then old(rows)[k].(visible := shown) else old(rows)[k]
    {
      ghost var before := rows;
      var j := 0;
      while j < |rows|
        invariant 0 <= j <= |rows| == |before|
        invariant forall k :: 0 <= k < j ==> rows[k] == if before[k].emptyState then before[k].(visible := shown) else before[k]
        invariant forall k :: j <= k < |rows| ==> rows[k] == before[k]
      {
        if rows[j].emptyState {
          rows := rows[j := rows[j].(visible := shown)];
        }
        j := j + 1;
      }
    }

    /**
     * The column sort. When the comparator would read a missing cell it
     * throws and the body is left as it was. Otherwise the rows are sorted,
     * the body is cleared and the sorted rows are appended one by one: the
     * body then holds exactly the rows it held, ordered by the comparator,
     * with rows the comparator calls equal in their former order.
     */
    method SortTable(columnIndex: int, order: string, le: (string, string) -> bool) returns (outcome: Outcome<SortFault>)
      requires TotalPreorder(le)
      modifies this`rows
      ensures outcome == if ComparatorThrows(old(rows), columnIndex) then Fail(TypeError) else Pass
      ensures outcome.Fail? ==> rows == old(rows)
      ensures outcome.Pass? ==> rows == SortRows(old(rows), columnIndex, order, le)
      ensures outcome.Pass? ==> multiset(rows) == multiset(old(rows)) && Sorted(rows, columnIndex, order, le)
      ensures outcome.Pass? ==> forall t :: TieClass(rows, t, columnIndex, le) == TieClass(old(rows), t, columnIndex, le)
    {
      if ComparatorThrows(rows, columnIndex) {
        return Fail(TypeError);
      }
      var sorted := SortRows(rows, columnIndex, order, le);
      SortRowsPermutation(rows, columnIndex, order, le);
      SortRowsSorted(rows, columnIndex, order, le);
      forall t
        ensures TieClass(sorted, t, columnIndex, le) == TieClass(rows, t, columnIndex, le)
      {
        SortRowsStable(rows, t, columnIndex, order, le);
      }
      Repopulate(sorted);
      outcome := Pass;
    }

    /** Clears the body, then appends the given rows one by one. */
    method Repopulate(sorted: seq<Row>)
      modifies this`rows
      ensures rows == sorted
    {
      rows := [];
      var i := 0;
      while i < |sorted|
        invariant 0 <= i <= |sorted|
        invariant rows == sorted[..i]
      {
        rows := rows + [sorted[i]];
        i := i + 1;
      }
      assert sorted[..i] == sorted;
    }

    /**
     * The export text: the header line, then the line of each displayed row
     * in table order, pushed onto `csv` one at a time and joined by line
     * feeds.
     */
    method ExportCsv() returns (content: string)
      ensures content == CsvContent(headers, rows)
    {
      var csv := [Join(headers, ',')];
      var i := 0;
      while i < |rows|
        invariant 0 <= i <= |rows|
        invariant csv == [Join(headers, ',')] + DataLines(rows[..i])
      {
        var row := rows[i];
        if row.visible {
          csv := csv + [Join(DataFields(row.cells), ',')];
        }
        assert rows[..i + 1][..i] == rows[..i];
        i := i + 1;
      }
      assert rows[..i] == rows;
      content := Join(csv, '\n');
    }

    /** Writes the label of the displayed-row count into the counter, if the page has one. */
    method UpdateItemCount()
      modifies this`counter
      ensures counter == if old(counter).None? then None else Some(ItemCountLabel(CountVisible(rows)))
    {
      if counter.Some? {
        var count := CountVisible(rows);
        counter := Some(ItemCountLabel(count));
      }
    }
  }

  /** The export is a no-op when the page has no table. */
  method ExportTableToCsv(table: Table?) returns (content: Option<string>)
    ensures table == null ==> content == None
    ensures table != null ==> content == Some(CsvContent(table.headers, table.rows))
  {
    if table == null {
      return None;
    }
    var text := table.ExportCsv();
    content := Some(text);
  }
}

=== FILE: text.dfy ===
/**
 * String helpers the table code relies on: case folding (toLowerCase),
 * substring search (includes), whitespace trimming (trim), joining and
 * splitting on a separator (join / split), and decimal rendering of a
 * natural number (Number.prototype.toString).
 */
module Text {

  // ---------------------------------------------------------------------
  // Case folding
  // ---------------------------------------------------------------------

  /** ASCII case folding of one character. */
  function LowerChar(c: char): char {
    if 'A' <= c <= 'Z' then (c as int + 32) as char else c
  }

  /** toLowerCase, restricted to ASCII letters. */
  function Lower(s: string): string {
    seq(|s|, i requires 0 <= i < |s| => LowerChar(s[i]))
  }

  /** Folding twice is folding once, and no upper-case ASCII letter survives it. */
  lemma LowerIdempotent(s: string)
    ensures |Lower(s)| == |s|
    ensures Lower(Lower(s)) == Lower(s)
    ensures forall i :: 0 <= i < |s| ==> !('A' <= Lower(s)[i] <= 'Z')
  {
  }

  /** A lower-case letter absent from the text in both cases is absent from its folding. */
  lemma LowerKeepsOut(s: string, c: char)
    requires 'a' <= c <= 'z'
    requires c !in s && (c as int - 32) as char !in s
    ensures c !in Lower(s)
  {
    forall i | 0 <= i < |s|
      ensures Lower(s)[i] != c
    {
      assert s[i] != c && s[i] != (c as int - 32) as char;
    }
  }

  // ---------------------------------------------------------------------
  // Substring search
  // ---------------------------------------------------------------------

  /** `sub` occurs in `text` starting at index `i`. */
  predicate OccursAt(text: string, sub: string, i: int) {
    0 <= i && i + |sub| <= |text| && text[i..i + |sub|] == sub
  }

  /** String.prototype.includes: does `sub` occur somewhere in `text`? */
  predicate Includes(text: string, sub: string)
    decreases |text|
  {
    if sub <= text then true
    else if |text| == 0 then false
    else Includes(text[1..], sub)
  }

  /** The scanning search agrees with the declarative definition of an occurrence. */
  lemma {:induction false} IncludesIff(text: string, sub: string)
    ensures Includes(text, sub) <==> exists i :: OccursAt(text, sub, i)
    decreases |text|
  {
    if sub <= text {
      assert OccursAt(text, sub, 0);
    } else if |text| == 0 {
      assert |sub| > 0;
    } else {
      var tail := text[1..];
      IncludesIff(tail, sub);
      if Includes(tail, sub) {
        var i :| OccursAt(tail, sub, i);
        assert text[i + 1..i + 1 + |sub|] == tail[i..i + |sub|];
        assert OccursAt(text, sub, i + 1);
      }
      if exists i :: OccursAt(text, sub, i) {
        var i :| OccursAt(text, sub, i);
        assert i != 0;
        assert tail[i - 1..i - 1 + |sub|] == text[i..i + |sub|];
        assert OccursAt(tail, sub, i - 1);
      }
    }
  }

  /** A character of the needle that the haystack lacks rules out an occurrence. */
  lemma MissingCharExcludes(text: string, sub: string, c: char)
    requires c in sub && c !in text
    ensures !Includes(text, sub)
  {
    IncludesIff(text, sub);
    var k :| 0 <= k < |sub| && sub[k] == c;
    forall i | 0 <= i && i + |sub| <= |text|
      ensures !OccursAt(text, sub, i)
    {
      assert text[i..i + |sub|][k] == text[i + k];
    }
  }

  // ---------------------------------------------------------------------
  // Trimming
  // ---------------------------------------------------------------------

  /**
   * White space and line terminators as String.prototype.trim removes
   * them: TAB, LF, VT, FF, CR, SPACE, NBSP, the space separators of
   * Unicode category Zs, LINE and PARAGRAPH SEPARATOR, and the BOM.
   */
  predicate IsSpace(c: char) {
    var n := c as int;
    (0x09 <= n <= 0x0D) || n == 0x20 || n == 0xA0 || n == 0x1680
    || (0x2000 <= n <= 0x200A) || n == 0x2028 || n == 0x2029
    || n == 0x202F || n == 0x205F || n == 0x3000 || n == 0xFEFF
  }

  /** The number of white-space characters `s` starts with. */
  function LeadingSpaces(s: string): (n: nat)
    ensures n <= |s|
    ensures forall k :: 0 <= k < n ==> IsSpace(s[k])
    ensures n < |s| ==> !IsSpace(s[n])
    decreases |s|
  {
    if |s| > 0 && IsSpace(s[0]) then 1 + LeadingSpaces(s[1..]) else 0
  }

  /** The number of white-space characters `s` ends with. */
  function TrailingSpaces(s: string): (n: nat)
    ensures n <= |s|
    ensures forall k :: |s| - n <= k < |s| ==> IsSpace(s[k])
    ensures n < |s| ==> !IsSpace(s[|s| - n - 1])
    decreases |s|
  {
    if |s| > 0 && IsSpace(s[|s| - 1]) then 1 + TrailingSpaces(s[..|s| - 1]) else 0
  }

  /** String.prototype.trimStart. */
  function TrimStart(s: string): string {
    s[LeadingSpaces(s)..]
  }

  /** String.prototype.trimEnd. */
  function TrimEnd(s: string): string {
    s[..|s| - TrailingSpaces(s)]
  }

  /** String.prototype.trim. */
  function Trim(s: string): string {
    TrimEnd(TrimStart(s))
  }

  /**
   * Trimming keeps the middle of the text that starts after the leading
   * white space, and every character before or after that middle is white
   * space.
   */
  lemma TrimKeepsMiddle(s: string)
    ensures var r := Trim(s);
      var i := |s| - |TrimStart(s)|;
      && i + |r| <= |s| && s[i..i + |r|] == r
      && (forall k :: 0 <= k < i ==> IsSpace(s[k]))
      && (forall k :: i + |r| <= k < |s| ==> IsSpace(s[k]))
  {
    var t := TrimStart(s);
    var i := LeadingSpaces(s);
    var n := TrailingSpaces(t);
    forall k | i + |t| - n <= k < |s|
      ensures IsSpace(s[k])
    {
      assert s[k] == t[k - i];
    }
  }

  /** A trimmed text neither starts nor ends with white space. */
  lemma TrimEnds(s: string)
    ensures |Trim(s)| > 0 ==> !IsSpace(Trim(s)[0]) && !IsSpace(Trim(s)[|Trim(s)| - 1])
  {
    var t := TrimStart(s);
    var r := TrimEnd(t);
    if |r| > 0 {
      assert r[0] == t[0];
    }
  }

  /** A text that neither starts nor ends with white space is its own trimming. */
  lemma TrimUnchanged(s: string)
    requires |s| > 0 && !IsSpace(s[0]) && !IsSpace(s[|s| - 1])
    ensures Trim(s) == s
  {
    assert LeadingSpaces(s) == 0;
    assert TrailingSpaces(s) == 0;
  }

  /** Trimming is idempotent. */
  lemma TrimIdempotent(s: string)
    ensures Trim(Trim(s)) == Trim(s)
  {
  }

  // ---------------------------------------------------------------------
  // Join and split
  // ---------------------------------------------------------------------

  /** Array.prototype.join with a one-character separator. */
  function Join(parts: seq<string>, sep: char): string
    decreases |parts|
  {
    if |parts| == 0 then ""
    else if |parts| == 1 then parts[0]
    else parts[0] + [sep] + Join(parts[1..], sep)
  }

  /** Index of the first `c` in `s`. */
  function IndexOf(s: string, c: char): (k: nat)
    requires c in s
    ensures k < |s| && s[k] == c && c !in s[..k]
  {
    if s[0] == c then 0 else 1 + IndexOf(s[1..], c)
  }

  /** String.prototype.split on a one-character separator. */
  function Split(s: string, sep: char): seq<string>
    decreases |s|
  {
    if sep !in s then [s]
    else
      var k := IndexOf(s, sep);
      [s[..k]] + Split(s[k + 1..], sep)
  }

  /** The first separator after a separator-free prefix is the one that follows it. */
  lemma {:induction false} IndexOfAfter(a: string, c: char, b: string)
    requires c !in a
    ensures IndexOf(a + [c] + b, c) == |a|
    decreases |a|
  {
    if |a| > 0 {
      assert (a + [c] + b)[1..] == a[1..] + [c] + b;
      IndexOfAfter(a[1..], c, b);
    }
  }

  /** Splitting a joined list gives the list back when no part holds the separator. */
  lemma {:induction false} SplitJoin(parts: seq<string>, sep: char)
    requires |parts| >= 1
    requires forall i :: 0 <= i < |parts| ==> sep !in parts[i]
    ensures Split(Join(parts, sep), sep) == parts
    decreases |parts|
  {
    if |parts| > 1 {
      var rest := Join(parts[1..], sep);
      var s := parts[0] + [sep] + rest;
      IndexOfAfter(parts[0], sep, rest);
      assert s[|parts[0]|] == sep;
      assert s[..|parts[0]|] == parts[0];
      assert s[|parts[0]| + 1..] == rest;
      SplitJoin(parts[1..], sep);
    }
  }

  // ---------------------------------------------------------------------
  // Decimal digits
  // ---------------------------------------------------------------------

  predicate IsDigit(c: char) {
    '0' <= c <= '9'
  }

  predicate AllDigits(s: string) {
    forall i :: 0 <= i < |s| ==> IsDigit(s[i])
  }

  function DigitChar(d: nat): char
    requires d < 10
  {
    ('0' as int + d) as char
  }

  /** Number.prototype.toString for a natural number: its decimal digits. */
  function Digits(n: nat): (r: string)
    ensures |r| >= 1 && AllDigits(r)
    ensures r[0] == '0' ==> n == 0
  {
    if n < 10 then [DigitChar(n)] else Digits(n / 10) + [DigitChar(n % 10)]
  }

  /** The value of a string of decimal digits. */
  function DigitsValue(s: string): nat
    requires AllDigits(s)
  {
    if |s| == 0 then 0
    else 10 * DigitsValue(s[..|s| - 1]) + (s[|s| - 1] as int - '0' as int)
  }

  /** Reading back the decimal digits of `n` gives `n`. */
  lemma {:induction false} DigitsRoundTrip(n: nat)
    ensures DigitsValue(Digits(n)) == n
  {
    if n >= 10 {
      DigitsRoundTrip(n / 10);
      var d := Digits(n);
      assert d[..|d| - 1] == Digits(n / 10);
    }
  }
}

=== FILE: wrappers.dfy ===
/** Small failure-carrying datatypes shared by the table model. */
module Wrappers {

  /** A value that may be absent, such as a DOM element a query did not find. */
  datatype Option<T> = None | Some(value: T)

  /** The outcome of an operation that either completes or throws. */
  datatype Outcome<E> = Pass | Fail(error: E)
}
